=== FILE: README.md ===
# Test-class detection, modelled in Dafny

This project models the test-class detection engine of Gradle's test
plugins, `AbstractTestFrameworkDetector`. The engine decides which compiled
classes in a test-output directory are runnable tests. Under the sample rule
described below, a class is a test when the test framework recognises it
directly, or when its superclass name is a known test-case base, or when its
superclass file is itself a test.
Superclass files are looked up along an ordered classpath: the test-classes
directory first, then the classpath directories, then the registered
archives. Superclass verdicts are cached per file. Only concrete tests that
were queried for their own sake are published.

The modules follow that structure:

- `Types` holds paths, class names, the class descriptor a class-file read
  yields (name, superclass name, abstract flag, annotations), the abstract
  file system, and the `Option`/`Result`/`Error` wrappers.
- `Names` holds the string rules:
  - the `.class` file name of a class;
  - the dotted-to-internal normalisation of known test-case names
    (section 4.2.1 of the Java Virtual Machine Specification);
  - `File.getName`;
  - the `.jar` suffix test.
- `Classpath` holds the specification of the lazily built classpath index
  and of the superclass-file lookup. The lookup takes the first directory
  that holds the file and falls back to the archives only when no directory
  does.
- `Hierarchy` holds two specifications over a well-founded superclass order:
  - `Verdict`, the verdict without a cache. Each of its three outcomes is
    characterised by a chain of resolved superclass files: `true` by a chain
    ending at a test root, `false` by a chain of non-roots ending at a class
    whose superclass is found nowhere, and an error by a chain of non-roots
    ending at an unreadable class file or at a null or empty superclass
    name. The verdict is also monotone in the known names.
  - `CachedVerdict`, the answer the detector gives while its cache holds
    given entries. A superclass file already in the cache is answered from
    the cache, whether or not the entry is still right.

  `Exact` says every cached entry is the verdict of its file. While it
  holds, the two specifications agree (`CachedVerdictExact`).
- `Detection` holds the class `Detector`. Its fields mirror the Java object:
  - the `initialised` flag, standing for the extraction manager's existence;
  - the directory list and the registered archives;
  - the superclass cache;
  - the known-name list;
  - the sink.

  Every method is proved against the specification functions. Queries need
  no assumption about the cache. They answer `CachedVerdict` over the cache
  as it was before the call, and they say how the cache grows. When the
  cache was exact, it stays exact and the answer is `Verdict`.
- `Scenario` is a small client. It builds a three-class hierarchy (A extends
  a registered base, abstract B extends A, C extends B) and runs the detector
  over it. The proofs show that:
  - A and C are published, and B is not;
  - the superclass files of A and B are cached;
  - a repeated query of C reads only C and publishes C again.
- `CycleElsewhere` is a client with a superclass cycle among its class
  files. The rank that orders superclass chains is required only along the
  chain from the queried file, and only up to its first test root. So a
  query answers when the cycle lies where the chain never reaches, and also
  when it lies behind a test root that stops the lookup.
- `StaleCache` is a second client. It shows the stale cache entry described
  under Findings, and shows that the revalidating registration avoids it.

`processTestClass(File, boolean)` is abstract in the Java class. Its
framework implementations are not part of this model. Its place is taken by
`ClassifyTestClass`, a sample base-class rule:

1. read the class;
2. accept it when the injected framework predicate `isLocalTest` does
   (annotations, interfaces);
3. accept a class whose superclass name is known;
4. otherwise resolve the superclass file through `getSuperTestClassFile`;
   a null or empty superclass name is an illegal-argument error there, a
   superclass found nowhere makes the class no test, and a found one is
   asked of the cache through `processSuperClass`;
5. publish the class.

The known-name registry appends a duplicate name again rather than ignoring
it.

`addKnownTestCaseClassNames` never clears the superclass cache, so a cached
`false` can go stale when names are registered after a query.
`AddKnownTestCaseClassNames` models the method as written: it changes only
the known names. Queries made after it still answer `CachedVerdict`, which
may then differ from `Verdict`. `AddKnownTestCaseClassNamesRevalidating`
is the corrected registration: it drops the cached `false` verdicts and
keeps the cache exact. `Hierarchy.VerdictMonotone` shows why a cached
`true` can stay.

## Model

All source cells refer to
`subprojects/gradle-plugins/src/main/groovy/org/gradle/api/testing/detection/AbstractTestFrameworkDetector.java`.

| member | source | states |
|---|---|---|
| Names.ClassFileName | subprojects/gradle-plugins/src/main/groovy/org/gradle/api/testing/detection/AbstractTestFrameworkDetector.java:126-133 | the published name is the class name followed by ".class", with nothing in between |
| Names.ClassFileNameInjective | subprojects/gradle-plugins/src/main/groovy/org/gradle/api/testing/detection/AbstractTestFrameworkDetector.java:126-133 | the published file name (class name followed by ".class") determines the class name, so two classes never publish the same name |
| Names.DottedToInternal | subprojects/gradle-plugins/src/main/groovy/org/gradle/api/testing/detection/AbstractTestFrameworkDetector.java:180 | replacing dots by slashes keeps the length, leaves no dot, keeps every other character in place and puts '/' where each dot was |
| Names.DottedToInternalFixes | subprojects/gradle-plugins/src/main/groovy/org/gradle/api/testing/detection/AbstractTestFrameworkDetector.java:180 | a name already free of dots is registered unchanged |
| Names.DottedToInternalIdempotent | subprojects/gradle-plugins/src/main/groovy/org/gradle/api/testing/detection/AbstractTestFrameworkDetector.java:180 | normalising twice equals normalising once |
| Names.NormalisedNames | subprojects/gradle-plugins/src/main/groovy/org/gradle/api/testing/detection/AbstractTestFrameworkDetector.java:176-184 | the names appended are at most as many as the arguments, and each is non-empty and dot-free |
| Names.NormalisedNamesAppend | subprojects/gradle-plugins/src/main/groovy/org/gradle/api/testing/detection/AbstractTestFrameworkDetector.java:176-184 | registering two argument lists one after the other appends the same names as registering their concatenation once |
| Names.NormalisedNamesAllPresent | subprojects/gradle-plugins/src/main/groovy/org/gradle/api/testing/detection/AbstractTestFrameworkDetector.java:178-181 | when every argument is non-null and non-empty, each contributes exactly its normalised form, at its own position, duplicates included |
| Names.NormalisedNamesAllBlank | subprojects/gradle-plugins/src/main/groovy/org/gradle/api/testing/detection/AbstractTestFrameworkDetector.java:177-179 | null and empty arguments contribute nothing |
| Names.NormalisedInternalPair | subprojects/gradle-plugins/src/main/groovy/org/gradle/api/testing/detection/AbstractTestFrameworkDetector.java:38-39 | the two built-in bases, already in internal form, are registered exactly as written and in order |
| Names.BaseName | subprojects/gradle-plugins/src/main/groovy/org/gradle/api/testing/detection/AbstractTestFrameworkDetector.java:102 | the name of a file is a slash-free suffix of its path, preceded by a slash unless it is the whole path |
| Names.JarNameOnWholePath | subprojects/gradle-plugins/src/main/groovy/org/gradle/api/testing/detection/AbstractTestFrameworkDetector.java:102 | testing ".jar" on the file's name is the same as testing it on the whole path |
| Classpath.KindOfCharacterised | subprojects/gradle-plugins/src/main/groovy/org/gradle/api/testing/detection/AbstractTestFrameworkDetector.java:100-104 | `KindOf` sends an entry to the searched directories exactly when it is a directory, and to the archives exactly when it is not a directory but a regular file whose name ends in ".jar" |
| Classpath.Select | subprojects/gradle-plugins/src/main/groovy/org/gradle/api/testing/detection/AbstractTestFrameworkDetector.java:99-105 | the entries kept of one kind are never more than the classpath entries |
| Classpath.SelectStep | subprojects/gradle-plugins/src/main/groovy/org/gradle/api/testing/detection/AbstractTestFrameworkDetector.java:99-105 | one more iteration of the classpath loop appends the entry exactly when it is of the kind kept |
| Classpath.SelectMembership | subprojects/gradle-plugins/src/main/groovy/org/gradle/api/testing/detection/AbstractTestFrameworkDetector.java:99-105 | an entry is kept as a directory (or an archive) exactly when it is on the classpath and is one |
| Classpath.SelectPartition | subprojects/gradle-plugins/src/main/groovy/org/gradle/api/testing/detection/AbstractTestFrameworkDetector.java:100-104 | the searched directories, the registered archives and the ignored entries together number exactly the classpath entries, so no entry is counted twice or lost |
| Classpath.IndexClasspath | subprojects/gradle-plugins/src/main/groovy/org/gradle/api/testing/detection/AbstractTestFrameworkDetector.java:95-97 | the directory list is never empty and starts with the test-classes directory |
| Classpath.IndexContents | subprojects/gradle-plugins/src/main/groovy/org/gradle/api/testing/detection/AbstractTestFrameworkDetector.java:94-106 | the index searches the test-classes directory first, then exactly the classpath directories; it registers exactly the classpath regular files whose path ends in ".jar" |
| Classpath.FirstHolding | subprojects/gradle-plugins/src/main/groovy/org/gradle/api/testing/detection/AbstractTestFrameworkDetector.java:71-80 | the index answered is the lowest one whose candidate exists; no index answered means that no directory holds the candidate |
| Classpath.SuperClassFile | subprojects/gradle-plugins/src/main/groovy/org/gradle/api/testing/detection/AbstractTestFrameworkDetector.java:65-87 | the lookup fails with an illegal argument exactly when the name is null or empty; when no directory holds the candidate, it answers what the archive lookup yields |
| Classpath.FirstDirectoryWins | subprojects/gradle-plugins/src/main/groovy/org/gradle/api/testing/detection/AbstractTestFrameworkDetector.java:71-83 | when the i-th directory is the first to hold `<name>.class`, that file is the answer, whatever the archives hold |
| Classpath.TestClassesDirectoryFirst | subprojects/gradle-plugins/src/main/groovy/org/gradle/api/testing/detection/AbstractTestFrameworkDetector.java:97 | a superclass present in the test-classes directory is resolved there, before any classpath directory or archive |
| Hierarchy.ReadClass | subprojects/gradle-plugins/src/main/groovy/org/gradle/api/testing/detection/AbstractTestFrameworkDetector.java:109-124 | a read succeeds exactly for readable class files; a failure is an error carrying the file's path |
| Hierarchy.Parent | subprojects/gradle-plugins/src/main/groovy/org/gradle/api/testing/detection/AbstractTestFrameworkDetector.java:65-87 | a class has a superclass file only when it is readable and names a non-empty superclass; that file is `<superclass>.class` in a searched directory that holds it, or what the archive lookup yields |
| Hierarchy.RankedParent | subprojects/gradle-plugins/src/main/groovy/org/gradle/api/testing/detection/AbstractTestFrameworkDetector.java:141-155 | the superclass file of a ranked file that is no test root is ranked lower, and its own chain is ranked, so the recursion through `processSuperClass` ends |
| Hierarchy.RankedMore | subprojects/gradle-plugins/src/main/groovy/org/gradle/api/testing/detection/AbstractTestFrameworkDetector.java:176-184 | registering more names keeps a ranked chain ranked, since it only adds test roots at which the lookup stops |
| Hierarchy.Verdict | subprojects/gradle-plugins/src/main/groovy/org/gradle/api/testing/detection/AbstractTestFrameworkDetector.java:139-155 | a class judged a test or no test was readable; a test root is a test; an unreadable-file error names the class itself or one of its superclass files |
| Hierarchy.CachedVerdict | subprojects/gradle-plugins/src/main/groovy/org/gradle/api/testing/detection/AbstractTestFrameworkDetector.java:141-155 | the same three facts hold for the answer given from a cache, whatever the cache holds |
| Hierarchy.GrownStore | subprojects/gradle-plugins/src/main/groovy/org/gradle/api/testing/detection/AbstractTestFrameworkDetector.java:149 | storing the computed verdict of a file not cached before keeps every old entry and adds only entries that hold answers computed from the old cache |
| Hierarchy.CachedVerdictExact | subprojects/gradle-plugins/src/main/groovy/org/gradle/api/testing/detection/AbstractTestFrameworkDetector.java:144-151 | while every cached verdict is right, answering from the cache gives the verdict without cache |
| Hierarchy.ExtendExact | subprojects/gradle-plugins/src/main/groovy/org/gradle/api/testing/detection/AbstractTestFrameworkDetector.java:146-149 | adding entries that hold answers computed from a right cache keeps every cached verdict right |
| Hierarchy.MemoAnswerExact | subprojects/gradle-plugins/src/main/groovy/org/gradle/api/testing/detection/AbstractTestFrameworkDetector.java:141-155 | while the cache is right, the memo answers the verdict without cache, on a hit and on a miss |
| Hierarchy.TrueEntriesStayExact | subprojects/gradle-plugins/src/main/groovy/org/gradle/api/testing/detection/AbstractTestFrameworkDetector.java:176-184 | after more names become known, the cached `true` verdicts of a right cache are still right |
| Hierarchy.TestChainFromVerdict | subprojects/gradle-plugins/src/main/groovy/org/gradle/api/testing/detection/AbstractTestFrameworkDetector.java:139-155 | a class judged a test starts a chain of resolved superclass files that ends at a test root |
| Hierarchy.VerdictFromTestChain | subprojects/gradle-plugins/src/main/groovy/org/gradle/api/testing/detection/AbstractTestFrameworkDetector.java:139-155 | every such chain makes its first class a test |
| Hierarchy.VerdictTrueIffTestChain | subprojects/gradle-plugins/src/main/groovy/org/gradle/api/testing/detection/AbstractTestFrameworkDetector.java:139-155 | a class is a test if and only if such a chain starts at it |
| Hierarchy.VerdictMonotone | subprojects/gradle-plugins/src/main/groovy/org/gradle/api/testing/detection/AbstractTestFrameworkDetector.java:176-184 | registering more known names never turns a test into a non-test, so a cached `true` stays correct |
| Hierarchy.MissingAncestorNotTest | subprojects/gradle-plugins/src/main/groovy/org/gradle/api/testing/detection/AbstractTestFrameworkDetector.java:82-86 | a class that is no test root, and whose superclass file neither a directory nor an archive yields, is not a test |
| Hierarchy.ChainVerdict | subprojects/gradle-plugins/src/main/groovy/org/gradle/api/testing/detection/AbstractTestFrameworkDetector.java:139-155 | along a chain of non-roots, each resolving its superclass to the next, every class has the verdict of the last one |
| Hierarchy.WalkFromVerdict | subprojects/gradle-plugins/src/main/groovy/org/gradle/api/testing/detection/AbstractTestFrameworkDetector.java:139-155 | a class that is not a test starts such a chain, ending at a class whose superclass does not resolve to a file |
| Hierarchy.VerdictFalseIffChain | subprojects/gradle-plugins/src/main/groovy/org/gradle/api/testing/detection/AbstractTestFrameworkDetector.java:82-86 | a class is judged no test if and only if such a chain from it ends at a readable non-root whose superclass file neither a directory nor an archive yields |
| Hierarchy.VerdictErrIffChain | subprojects/gradle-plugins/src/main/groovy/org/gradle/api/testing/detection/AbstractTestFrameworkDetector.java:67-68 | a class's verdict is a given error if and only if such a chain from it ends at an unreadable class file (the error names that file, as at :117-118) or at a non-root whose superclass name is null or empty (the illegal argument of :67-68) |
| Hierarchy.UnreadableSuperclassFails | subprojects/gradle-plugins/src/main/groovy/org/gradle/api/testing/detection/AbstractTestFrameworkDetector.java:117-118 | a non-root whose superclass file cannot be read fails with that file's path; the exception propagates through `processSuperClass` instead of becoming `false` |
| Detection.Detector.constructor | subprojects/gradle-plugins/src/main/groovy/org/gradle/api/testing/detection/AbstractTestFrameworkDetector.java:51-57 | a new detector keeps its directory and classpath, knows exactly "junit/framework/TestCase" then "groovy/util/GroovyTestCase", has an empty cache, an unprepared classpath and an empty sink |
| Detection.Detector.PrepareClasspath | subprojects/gradle-plugins/src/main/groovy/org/gradle/api/testing/detection/AbstractTestFrameworkDetector.java:89-107 | after the call the directories and archives are the index of the classpath; once prepared, a later call changes nothing |
| Detection.SearchDirectories | subprojects/gradle-plugins/src/main/groovy/org/gradle/api/testing/detection/AbstractTestFrameworkDetector.java:71-80 | the loop over the directories stops at the first whose candidate `<directory>/<name>.class` exists and answers that candidate; it answers none exactly when no directory holds it |
| Detection.Detector.GetSuperTestClassFile | subprojects/gradle-plugins/src/main/groovy/org/gradle/api/testing/detection/AbstractTestFrameworkDetector.java:65-87 | prepares the classpath, then answers exactly the lookup of the specification, error included |
| Detection.Detector.ClassVisitor | subprojects/gradle-plugins/src/main/groovy/org/gradle/api/testing/detection/AbstractTestFrameworkDetector.java:109-124 | reads the file once, recording the read, and answers its descriptor or an error carrying its path |
| Detection.Detector.PublishTestClass | subprojects/gradle-plugins/src/main/groovy/org/gradle/api/testing/detection/AbstractTestFrameworkDetector.java:162-166 | appends exactly the class's ".class" name when it is a concrete test not visited as a superclass; otherwise the sink is unchanged |
| Detection.Detector.ManualTestClass | subprojects/gradle-plugins/src/main/groovy/org/gradle/api/testing/detection/AbstractTestFrameworkDetector.java:168-170 | appends exactly the given name to the sink |
| Detection.Detector.AddKnownTestCaseClassNames | subprojects/gradle-plugins/src/main/groovy/org/gradle/api/testing/detection/AbstractTestFrameworkDetector.java:176-184 | the known list grows by exactly the normalised non-blank arguments, in order; existing entries and the cache are untouched |
| Detection.Detector.AddKnownTestCaseClassNamesRevalidating | subprojects/gradle-plugins/src/main/groovy/org/gradle/api/testing/detection/AbstractTestFrameworkDetector.java:176-184 | the known list grows exactly as with the registration as written; the cache keeps exactly its `true` entries, and a right cache stays right |
| Detection.Detector.IsKnownTestCaseClassName | subprojects/gradle-plugins/src/main/groovy/org/gradle/api/testing/detection/AbstractTestFrameworkDetector.java:186-200 | true if and only if the name is non-null, non-empty and in the known list; nothing changes |
| Detection.Detector.ClassifyTestClass | subprojects/gradle-plugins/src/main/groovy/org/gradle/api/testing/detection/AbstractTestFrameworkDetector.java:139 | reads the class, answers the verdict over the cache as it was, and publishes exactly a concrete test not visited as a superclass; keeps every old cache entry and adds entries only for superclass files, each holding its answer; on an error leaves the cache as it was; a test root, an unresolved superclass or a cached one means only the class itself is read and the cache is unchanged |
| Detection.Detector.DecideTestClass | subprojects/gradle-plugins/src/main/groovy/org/gradle/api/testing/detection/AbstractTestFrameworkDetector.java:139 | in the sample rule that stands for the abstract method, decides a class already read: the local predicate first, then the known-name test of :186-200; answers the verdict over the cache as it was, without publishing; a test root, an unresolved superclass or a cached one means nothing more is read and the cache is unchanged |
| Detection.Detector.SuperClassVerdict | subprojects/gradle-plugins/src/main/groovy/org/gradle/api/testing/detection/AbstractTestFrameworkDetector.java:139 | in the sample rule, resolves the superclass through the lookup of :65-87 (a null or empty name is the illegal-argument error of :67-68) and asks the memo of :141-155; the answer is the verdict over the cache as it was; a superclass found nowhere or already cached means nothing more is read and the cache is unchanged |
| Detection.Detector.ProcessTestClass | subprojects/gradle-plugins/src/main/groovy/org/gradle/api/testing/detection/AbstractTestFrameworkDetector.java:135-137 | a query for its own sake: answers the verdict over the cache as it was, publishes the class when it is a concrete test, reads the class first; when every cached verdict was right, the answer is the verdict without cache and the cache stays right |
| Detection.Detector.ProcessSuperClass | subprojects/gradle-plugins/src/main/groovy/org/gradle/api/testing/detection/AbstractTestFrameworkDetector.java:141-155 | a cache hit answers the stored verdict and changes nothing; a miss reads the file first, answers the verdict over the cache as it was and stores it under the file; old entries are kept, nothing is published, and an error stores nothing |
| Scenario.SampleVerdicts | subprojects/gradle-plugins/src/main/groovy/org/gradle/api/testing/detection/AbstractTestFrameworkDetector.java:139-155 | with the base registered, A, B and C are tests, B and C only through their superclasses |
| Scenario.SampleRankedAtC | subprojects/gradle-plugins/src/main/groovy/org/gradle/api/testing/detection/AbstractTestFrameworkDetector.java:139-155 | under the registered names, every sample class that is no test root and has a superclass file is ranked above it, so the chain from C is ranked |
| Scenario.Registered | subprojects/gradle-plugins/src/main/groovy/org/gradle/api/testing/detection/AbstractTestFrameworkDetector.java:176-184 | a new detector with the base registered under its dotted name, by the registration as written, knows it in internal form and has an empty cache and sink |
| Scenario.QueryA | subprojects/gradle-plugins/src/main/groovy/org/gradle/api/testing/detection/AbstractTestFrameworkDetector.java:135-166 | A, which extends the base directly, is published and nothing is cached |
| Scenario.QueryB | subprojects/gradle-plugins/src/main/groovy/org/gradle/api/testing/detection/AbstractTestFrameworkDetector.java:141-166 | the query of abstract B answers that it is a test through A, B is not published, and A is cached |
| Scenario.QueryC | subprojects/gradle-plugins/src/main/groovy/org/gradle/api/testing/detection/AbstractTestFrameworkDetector.java:141-166 | C is a test through B and A, is published, and B is cached next to A |
| Scenario.FirstRun | subprojects/gradle-plugins/src/main/groovy/org/gradle/api/testing/detection/AbstractTestFrameworkDetector.java:135-166 | on the sample hierarchy, with the base registered in dotted form, querying A, B and C publishes A.class then C.class and caches exactly A and B |
| Scenario.EndToEnd | subprojects/gradle-plugins/src/main/groovy/org/gradle/api/testing/detection/AbstractTestFrameworkDetector.java:141-155 | a second query of C reads only C, leaves the cache as it was, and publishes C.class again |
| StaleCache.StaleEntryAnswered | subprojects/gradle-plugins/src/main/groovy/org/gradle/api/testing/detection/AbstractTestFrameworkDetector.java:144-151 | the entry X := false is right before "lib/Base" is known; afterwards the answer from that entry for Y is `false` while Y's verdict is `true` |
| StaleCache.FirstQuery | subprojects/gradle-plugins/src/main/groovy/org/gradle/api/testing/detection/AbstractTestFrameworkDetector.java:141-155 | querying Y first answers no test and caches exactly X as no test |
| StaleCache.StaleRun | subprojects/gradle-plugins/src/main/groovy/org/gradle/api/testing/detection/AbstractTestFrameworkDetector.java:176-184 | with the registration as written, the second query of Y still answers `false` although Y's verdict is now `true` |
| StaleCache.RevalidatedRun | subprojects/gradle-plugins/src/main/groovy/org/gradle/api/testing/detection/AbstractTestFrameworkDetector.java:176-184 | with the revalidating registration, the second query of Y answers `true` |
| CycleElsewhere.CycleUnranked | subprojects/gradle-plugins/src/main/groovy/org/gradle/api/testing/detection/AbstractTestFrameworkDetector.java:141-155 | when P and Q name each other as superclass and neither is a test on its own account, no rank orders the chain from P: a query of P is excluded, as the source would recurse without end |
| CycleElsewhere.CycleRankedAtA | subprojects/gradle-plugins/src/main/groovy/org/gradle/api/testing/detection/AbstractTestFrameworkDetector.java:139-155 | the chain from A, whose superclass is the built-in base, is ranked although P and Q form a cycle |
| CycleElsewhere.QueryBesideCycle | subprojects/gradle-plugins/src/main/groovy/org/gradle/api/testing/detection/AbstractTestFrameworkDetector.java:135-137 | the query of A answers that it is a test, reads A alone and publishes A.class, the cycle elsewhere notwithstanding |
| CycleElsewhere.RootedRankedAtP | subprojects/gradle-plugins/src/main/groovy/org/gradle/api/testing/detection/AbstractTestFrameworkDetector.java:139-155 | once the local predicate accepts Q, Q is a test root and P's superclass file is Q, so the chain from P is ranked although Q names P as its superclass |
| CycleElsewhere.QueryBehindRoot | subprojects/gradle-plugins/src/main/groovy/org/gradle/api/testing/detection/AbstractTestFrameworkDetector.java:135-155 | the query of P answers that it is a test and publishes P.class, and Q is cached as a test without any lookup of its own superclass |

## Findings

| source | as written | input that shows it | evidently intended | confidence | as-written member | corrected member |
|---|---|---|---|---|---|---|
| subprojects/gradle-plugins/src/main/groovy/org/gradle/api/testing/detection/AbstractTestFrameworkDetector.java:176-184 | registering names leaves the superclass cache as it is, so a cached `false` is still answered after the names make that superclass a test | Y extends X, X extends lib/Base, which no directory and no archive holds; query Y (X is cached as `false`), register "lib.Base", query Y again: the answer is `false` | the second query answers `true`, the verdict under the names now known | low, not executed; the source may accept the stale entry because registration normally precedes all queries | Detection.Detector.AddKnownTestCaseClassNames (shown by StaleCache.StaleEntryAnswered and StaleCache.StaleRun) | Detection.Detector.AddKnownTestCaseClassNamesRevalidating (shown by StaleCache.RevalidatedRun) |

## Left out

- Reading class bytes with the ASM `ClassReader` (`classVisitor`, `createClassVisitor`) is replaced by a map from class files to descriptors. The exception message text is reduced to the file's path, and `getAbsolutePath` is not modelled.
- `ClassFileExtractionManager` and its archive extraction are not part of this model. Registered archives are a sequence, and the lookup of a class in them is an injected function that may yield no file.
- `File.exists`, `isDirectory`, `isFile` and classpath iteration are predicates and a sequence over an abstract file system. `new File(directory, name)` is string concatenation with "/", without path normalisation.
- The concrete framework detectors behind `processTestClass(File, boolean)` are not part of this model. `ClassifyTestClass` uses a sample base-class rule with an injected framework predicate.
- Detection.Detector.ClassifyTestClass: requires a rank that strictly decreases from every class file that is ranked no higher than the queried file and is no test root to its superclass file, and so do the other query methods. A cycle that the lookups from the queried file reach before any test root therefore excludes the query; the source does not guard against one and would recurse without end. A cycle elsewhere (`CycleElsewhere.QueryBesideCycle`) or behind a test root (`CycleElsewhere.QueryBehindRoot`) does not exclude it.
- Detection.Detector.ProcessSuperClass: states the exactness of its answer through the lemma `Hierarchy.MemoAnswerExact` rather than in its own contract.
- `setTestClassProcessor` and a missing sink are not modelled. The sink is the `published` sequence of names the detector has handed on.
- `getTestClassesDirectory` is the constant field `testClassesDirectory`.
- The file system and the test classpath are fixed for a detector's lifetime. The index that the first `prepareClasspath` builds therefore cannot go stale in the model. A directory or archive that appears or vanishes after the first query is not modelled.
- A null varargs array is treated like an empty argument list, which the source also ignores. A null element is `None`.
- Exceptions are `Err` results. The illegal-argument error of `getSuperTestClassFile` and the read failure of `classVisitor` propagate to the caller, as the exceptions do; a read recorded before the throw stays recorded. No exception can follow a superclass verdict that was cached, so an error leaves the cache as it was, as in the source.
- Concurrency is not modelled: the Java object is not thread-safe, and the model is single-threaded.
- `LocalModuleVersionRepository` is not part of this model. It only forwards to a delegate.

=== FILE: classpath.dfy ===
/**
  The classpath index and the superclass file lookup, as specification
  functions: the directories searched (test-classes directory first, then the
  classpath directories in iteration order), the archives registered, and the
  first-match-wins resolution of `<name>.class` with the archive fallback.
 */
module Classpath {
  import opened Types
  import opened Names

  /** How one classpath entry is treated when the index is built. */
  datatype EntryKind = ClassDirectory | LibraryJar | Ignored

  /** A directory is searched; a regular file whose name ends in ".jar" is registered; anything else is ignored. */
  function KindOf(fs: FileSystem, p: Path): EntryKind {
    if fs.IsDirectory(p) then ClassDirectory
    else if fs.IsFile(p) && EndsWith(BaseName(p), JarExt) then LibraryJar
    else Ignored
  }

  /**
    An entry is searched exactly when it is a directory, and registered
    exactly when it is not a directory but a regular file whose path ends in
    ".jar"; the file's name and its whole path end alike.
   */
  lemma KindOfCharacterised(fs: FileSystem, p: Path)
    ensures KindOf(fs, p) == ClassDirectory <==> fs.IsDirectory(p)
    ensures KindOf(fs, p) == LibraryJar <==> !fs.IsDirectory(p) && fs.IsFile(p) && EndsWith(p, JarExt)
  {
    JarNameOnWholePath(p);
  }

  /** The entries of the given kind, in iteration order. */
  function Select(fs: FileSystem, entries: seq<Path>, kind: EntryKind): (r: seq<Path>)
    ensures |r| <= |entries|
  {
    if entries == [] then []
    else
      var last := entries[|entries| - 1];
      Select(fs, entries[..|entries| - 1], kind) + (if KindOf(fs, last) == kind then [last] else [])
  }

  /** Extending the entries by one more appends that entry when it is of the kind asked for. */
  lemma SelectStep(fs: FileSystem, entries: seq<Path>, i: nat, kind: EntryKind)
    requires i < |entries|
    ensures Select(fs, entries[..i + 1], kind)
            == Select(fs, entries[..i], kind) + (if KindOf(fs, entries[i]) == kind then [entries[i]] else [])
  {
    assert entries[..i + 1][..i] == entries[..i];
  }

  /** An entry is selected exactly when it is on the classpath and of the kind asked for. */
  lemma {:induction false} SelectMembership(fs: FileSystem, entries: seq<Path>, kind: EntryKind, p: Path)
    ensures p in Select(fs, entries, kind) <==> p in entries && KindOf(fs, p) == kind
  {
    if entries != [] {
      var init := entries[..|entries| - 1];
      SelectMembership(fs, init, kind, p);
      assert entries == init + [entries[|entries| - 1]];
    }
  }

  /** Every classpath entry goes to exactly one of: the directory list, the archive set, nowhere. */
  lemma {:induction false} SelectPartition(fs: FileSystem, entries: seq<Path>)
    ensures |Select(fs, entries, ClassDirectory)| + |Select(fs, entries, LibraryJar)|
            + |Select(fs, entries, Ignored)| == |entries|
  {
    if entries != [] {
      SelectPartition(fs, entries[..|entries| - 1]);
    }
  }

  /** The classpath model: directories in search order and the registered archives. */
  datatype ClasspathIndex = ClasspathIndex(directories: seq<Path>, jars: seq<Path>)

  /** A null classpath contributes no entries. */
  function Entries(classpath: Option<seq<Path>>): seq<Path> {
    if classpath.Some? then classpath.value else []
  }

  /** The index that the first preparation of the classpath builds. */
  function IndexClasspath(fs: FileSystem, testClassesDirectory: Path, classpath: Option<seq<Path>>): (r: ClasspathIndex)
    ensures |r.directories| > 0 && r.directories[0] == testClassesDirectory
  {
    ClasspathIndex(
      [testClassesDirectory] + Select(fs, Entries(classpath), ClassDirectory),
      Select(fs, Entries(classpath), LibraryJar))
  }

  /**
    The index searches the test-classes directory first, then exactly the
    classpath directories; it registers exactly the classpath archives.
   */
  lemma IndexContents(fs: FileSystem, testClassesDirectory: Path, classpath: Option<seq<Path>>, p: Path)
    ensures IndexClasspath(fs, testClassesDirectory, classpath).directories[0] == testClassesDirectory
    ensures p in IndexClasspath(fs, testClassesDirectory, classpath).directories[1..]
            <==> p in Entries(classpath) && fs.IsDirectory(p)
    ensures p in IndexClasspath(fs, testClassesDirectory, classpath).jars
            <==> p in Entries(classpath) && !fs.IsDirectory(p) && fs.IsFile(p) && EndsWith(p, JarExt)
  {
    var cp := IndexClasspath(fs, testClassesDirectory, classpath);
    assert cp.directories[1..] == Select(fs, Entries(classpath), ClassDirectory);
    SelectMembership(fs, Entries(classpath), ClassDirectory, p);
    SelectMembership(fs, Entries(classpath), LibraryJar, p);
    JarNameOnWholePath(p);
  }

  /** The position of the first directory that holds the file, if any does. */
  function FirstHolding(fs: FileSystem, directories: seq<Path>, fileName: string): (r: Option<nat>)
    ensures r.Some? ==>
      && r.value < |directories|
      && fs.Exists(Child(directories[r.value], fileName))
      && forall j :: 0 <= j < r.value ==> !fs.Exists(Child(directories[j], fileName))
    ensures r.None? ==> forall j :: 0 <= j < |directories| ==> !fs.Exists(Child(directories[j], fileName))
  {
    if directories == [] then None
    else if fs.Exists(Child(directories[0], fileName)) then Some(0)
    else match FirstHolding(fs, directories[1..], fileName)
      case None => None
      case Some(i) => Some(i + 1)
  }

  /**
    The file of the class named `name`: an empty name is an illegal argument;
    otherwise `<name>.class` in the first directory where it exists, and only
    when no directory has it, whatever the archive lookup answers.
   */
  function SuperClassFile(fs: FileSystem, cp: ClasspathIndex,
                          libraryClassFile: (seq<Path>, ClassName) -> Option<Path>,
                          name: Option<ClassName>): (r: Result<Option<Path>>)
    ensures r.Err? <==> name.None? || name.value == ""
    ensures r.Err? ==> r.error.IllegalArgument?
    ensures r.Ok? && (forall j :: 0 <= j < |cp.directories| ==> !fs.Exists(Child(cp.directories[j], ClassFileName(name.value))))
            ==> r.value == libraryClassFile(cp.jars, name.value)
  {
    if name.None? || name.value == "" then Err(IllegalArgument("superClassName is empty!"))
    else
      var fileName := ClassFileName(name.value);
      match FirstHolding(fs, cp.directories, fileName)
      case Some(i) => Ok(Some(Child(cp.directories[i], fileName)))
      case None => Ok(libraryClassFile(cp.jars, name.value))
  }

  /**
    Precedence: when the i-th directory is the first to hold `<name>.class`,
    that file is the answer, whatever the archives hold.
   */
  lemma FirstDirectoryWins(fs: FileSystem, cp: ClasspathIndex,
                           libraryClassFile: (seq<Path>, ClassName) -> Option<Path>,
                           name: ClassName, i: nat)
    requires name != ""
    requires i < |cp.directories| && fs.Exists(Child(cp.directories[i], ClassFileName(name)))
    requires forall j :: 0 <= j < i ==> !fs.Exists(Child(cp.directories[j], ClassFileName(name)))
    ensures SuperClassFile(fs, cp, libraryClassFile, Some(name)) == Ok(Some(Child(cp.directories[i], ClassFileName(name))))
  {
  }

  /** A class in the test-classes directory is found there, before any other directory or archive. */
  lemma TestClassesDirectoryFirst(fs: FileSystem, testClassesDirectory: Path, classpath: Option<seq<Path>>,
                                  libraryClassFile: (seq<Path>, ClassName) -> Option<Path>, name: ClassName)
    requires name != ""
    requires fs.Exists(Child(testClassesDirectory, ClassFileName(name)))
    ensures SuperClassFile(fs, IndexClasspath(fs, testClassesDirectory, classpath), libraryClassFile, Some(name))
            == Ok(Some(Child(testClassesDirectory, ClassFileName(name))))
  {
  }
}

=== FILE: cycle.dfy ===
/**
  Superclass cycles and the queries they do not block. P and Q name each
  other as superclass, while A extends the built-in base junit/framework/TestCase.
  Under the base-class rule alone, no rank orders the chain from P, so P
  cannot be queried; A is ranked, and its query answers after reading A
  alone. Once the framework's local predicate accepts Q, the lookup from P
  stops at Q, the cycle lies behind a test root, and P is answered too.
 */
module CycleElsewhere {
  import opened Types
  import opened Names
  import opened Classpath
  import opened Hierarchy
  import opened Detection

  const Out: Path := "out"
  const FileA: Path := "out/A.class"
  const FileP: Path := "out/P.class"
  const FileQ: Path := "out/Q.class"

  /** The names every new detector knows. */
  const Builtin: seq<ClassName> := [TestCase, GroovyTestCase]

  function CycleFileSystem(): FileSystem {
    FileSystem(
      {Out},
      {FileA, FileP, FileQ},
      map[
        FileA := ClassDescriptor("A", Some(TestCase), false, {}),
        FileP := ClassDescriptor("P", Some("Q"), false, {}),
        FileQ := ClassDescriptor("Q", Some("P"), false, {})])
  }

  /** Only the base-class rule: the local predicate accepts nothing. */
  function CycleEnvironment(): Environment {
    Environment(CycleFileSystem(), (jars, name) => None, d => false)
  }

  /** The local predicate accepts Q, say for an annotation it carries. */
  function RootedEnvironment(): Environment {
    Environment(CycleFileSystem(), (jars, name) => None, (d: ClassDescriptor) => d.name == "Q")
  }

  /** A is ranked below everything else; P and Q share a rank. */
  function CycleRank(p: Path): nat {
    if p == FileA then 0 else 1
  }

  /** P is ranked above everything else. */
  function RootedRank(p: Path): nat {
    if p == FileP then 1 else 0
  }

  lemma CycleIndex()
    ensures IndexClasspath(CycleFileSystem(), Out, None) == ClasspathIndex([Out], [])
  {
  }

  /** P resolves to Q and Q to P, whatever the local predicate. */
  lemma CycleParents(env: Environment)
    requires env.fs == CycleFileSystem() && env.libraryClassFile == CycleEnvironment().libraryClassFile
    ensures Parent(env, ClasspathIndex([Out], []), FileP) == Some(FileQ)
    ensures Parent(env, ClasspathIndex([Out], []), FileQ) == Some(FileP)
  {
    assert Child(Out, ClassFileName("Q")) == FileQ;
    assert Child(Out, ClassFileName("P")) == FileP;
  }

  /** Neither P nor Q is a test on its own account under the base-class rule and the built-in names. */
  lemma CycleNoRoots()
    ensures !TestRoot(CycleEnvironment(), Builtin, FileP) && !TestRoot(CycleEnvironment(), Builtin, FileQ)
  {
    assert "P" != TestCase && "P" != GroovyTestCase && "Q" != TestCase && "Q" != GroovyTestCase;
  }

  /** Whatever the rank, the chain from P is not ranked. */
  lemma CycleUnranked(rank: Path -> nat)
    ensures !Ranked(CycleEnvironment(), ClasspathIndex([Out], []), Builtin, rank, FileP)
  {
    CycleParents(CycleEnvironment());
    CycleNoRoots();
  }

  /** A is ranked at or below nothing but files without a superclass file or test roots. */
  lemma CycleRankedAtA()
    ensures Ranked(CycleEnvironment(), ClasspathIndex([Out], []), Builtin, CycleRank, FileA)
  {
    assert !CycleFileSystem().Exists(Child(Out, ClassFileName(TestCase)));
  }

  /** The query of A answers that it is a test, reads A alone and publishes it, the cycle notwithstanding. */
  method QueryBesideCycle() returns (r: Result<bool>, published: seq<string>, ghost readFiles: seq<Path>)
    ensures r == Ok(true)
    ensures published == [ClassFileName("A")]
    ensures readFiles == [FileA]
  {
    var detector := new Detector(Out, None, CycleEnvironment());
    CycleIndex();
    CycleRankedAtA();
    r := detector.ProcessTestClass(FileA, CycleRank);
    published := detector.published;
    readFiles := detector.readLog;
  }

  /** With Q a test root, the lookup from P stops at Q, so the chain from P is ranked. */
  lemma RootedRankedAtP()
    ensures TestRoot(RootedEnvironment(), Builtin, FileQ) && !TestRoot(RootedEnvironment(), Builtin, FileP)
    ensures Parent(RootedEnvironment(), ClasspathIndex([Out], []), FileP) == Some(FileQ)
    ensures Ranked(RootedEnvironment(), ClasspathIndex([Out], []), Builtin, RootedRank, FileP)
  {
    CycleParents(RootedEnvironment());
    assert "Q" != TestCase && "Q" != GroovyTestCase;
    assert !CycleFileSystem().Exists(Child(Out, ClassFileName(TestCase)));
  }

  /**
    The query of P, whose superclass Q names P again: Q is read, found a test
    on its own account and cached without any further lookup, and P is
    answered a test and published.
   */
  method QueryBehindRoot() returns (r: Result<bool>, published: seq<string>, cached: map<Path, bool>)
    ensures r == Ok(true)
    ensures published == [ClassFileName("P")]
    ensures cached == map[FileQ := true]
  {
    var detector := new Detector(Out, None, RootedEnvironment());
    CycleIndex();
    RootedRankedAtP();
    r := detector.ProcessTestClass(FileP, RootedRank);
    published := detector.published;
    cached := detector.superClasses;
    assert Ancestors(RootedEnvironment(), ClasspathIndex([Out], []), Builtin, RootedRank, FileP) == {FileQ};
    assert FileQ in cached && cached.Keys == {FileQ};
    assert CachedVerdict(RootedEnvironment(), ClasspathIndex([Out], []), Builtin, map[], RootedRank, FileQ) == Ok(true);
    assert cached == map[FileQ := true];
  }
}

=== FILE: detector.dfy ===
/**
  The test-class detector: a lazily built classpath index, a known test-case
  name registry, a superclass verdict cache keyed by class file, and a sink
  of published class-file names. Every method is proved against the
  specification functions of Classpath and Hierarchy.
 */
module Detection {
  import opened Types
  import opened Names
  import opened Classpath
  import opened Hierarchy

  /**
    The search of getSuperTestClassFile: the candidate `<directory>/<fileName>`
    in each directory in turn, stopping at the first that exists.
   */
  method SearchDirectories(fs: FileSystem, directories: seq<Path>, fileName: string) returns (found: Option<Path>)
    ensures found.Some? <==> FirstHolding(fs, directories, fileName).Some?
    ensures found.Some? ==> found.value == Child(directories[FirstHolding(fs, directories, fileName).value], fileName)
  {
    found := None;
    var i := 0;
    while found.None? && i < |directories|
      invariant 0 <= i <= |directories|
      invariant found.None? ==> forall j :: 0 <= j < i ==> !fs.Exists(Child(directories[j], fileName))
      invariant found.Some? ==>
        && 0 < i
        && found.value == Child(directories[i - 1], fileName)
        && fs.Exists(found.value)
        && forall j :: 0 <= j < i - 1 ==> !fs.Exists(Child(directories[j], fileName))
    {
      var candidate := Child(directories[i], fileName);
      if fs.Exists(candidate) {
        found := Some(candidate);
      }
      i := i + 1;
    }
  }

  class Detector {
    const testClassesDirectory: Path
    const testClasspath: Option<seq<Path>>
    const env: Environment

    /** Whether the classpath has been prepared (the extraction manager exists). */
    var initialised: bool
    /** The directories searched for superclass files, in search order. */
    var testClassDirectories: seq<Path>
    /** The archives registered with the extraction manager. */
    var libraryJars: seq<Path>
    /** The superclass verdict cache. */
    var superClasses: map<Path, bool>
    /** The known test-case names, in registration order, in internal form. */
    var knownTestCaseClassNames: seq<ClassName>
    /** The class names the sink has been given, in order. */
    var published: seq<string>
    /** The class files read, in order. */
    ghost var readLog: seq<Path>

    /** The classpath index the first preparation builds. */
    ghost function Index(): ClasspathIndex {
      IndexClasspath(env.fs, testClassesDirectory, testClasspath)
    }

    ghost predicate Valid()
      reads this
    {
      && (initialised ==> testClassDirectories == Index().directories && libraryJars == Index().jars)
      && (!initialised ==> testClassDirectories == [] && libraryJars == [])
      && (forall n :: n in knownTestCaseClassNames ==> IsInternalName(n))
    }

    /** Every cached verdict is the verdict of its file under the current known names. */
    ghost predicate CacheExact(rank: Path -> nat)
      reads this
    {
      Exact(env, Index(), knownTestCaseClassNames, superClasses, rank)
    }

    /** The verdict of a class file under this detector's classpath and current known names. */
    ghost function VerdictOf(rank: Path -> nat, f: Path): Result<bool>
      reads this
      requires Ranked(env, Index(), knownTestCaseClassNames, rank, f)
    {
      Verdict(env, Index(), knownTestCaseClassNames, rank, f)
    }

    /** The answer a query gives while the cache holds `cache`. */
    ghost function CachedVerdictOf(cache: map<Path, bool>, rank: Path -> nat, f: Path): Result<bool>
      reads this
      requires Ranked(env, Index(), knownTestCaseClassNames, rank, f)
    {
      CachedVerdict(env, Index(), knownTestCaseClassNames, cache, rank, f)
    }

    /**
      The cache keeps every entry of `before` and adds entries only for files
      in `reached`, each holding the answer computed while the cache was `before`.
     */
    ghost predicate GrownFrom(before: map<Path, bool>, reached: set<Path>, rank: Path -> nat)
      reads this
    {
      Grown(env, Index(), knownTestCaseClassNames, before, superClasses, reached, rank)
    }

    constructor (testClassesDirectory: Path, testClasspath: Option<seq<Path>>, env: Environment)
      ensures Valid()
      ensures this.testClassesDirectory == testClassesDirectory && this.testClasspath == testClasspath
      ensures this.env == env
      ensures knownTestCaseClassNames == [TestCase, GroovyTestCase]
      ensures superClasses == map[]
      ensures !initialised && published == [] && readLog == []
    {
      this.testClassesDirectory := testClassesDirectory;
      this.testClasspath := testClasspath;
      this.env := env;
      initialised := false;
      testClassDirectories := [];
      libraryJars := [];
      superClasses := map[];
      knownTestCaseClassNames := [];
      published := [];
      readLog := [];
      new;
      NormalisedInternalPair(TestCase, GroovyTestCase);
      AddKnownTestCaseClassNames([Some(TestCase), Some(GroovyTestCase)]);
    }

    /**
      Builds the classpath index on the first call only: the test-classes
      directory, then every classpath directory, in order; every classpath
      regular file named "*.jar" is registered; nothing else is kept.
     */
    method PrepareClasspath()
      requires Valid()
      modifies this`initialised, this`testClassDirectories, this`libraryJars
      ensures Valid() && initialised
      ensures old(initialised) ==> unchanged(this)
      ensures testClassDirectories == Index().directories && libraryJars == Index().jars
    {
      if initialised {
        return;
      }
      initialised := true;
      testClassDirectories := [testClassesDirectory];
      libraryJars := [];
      if testClasspath.Some? {
        var entries := testClasspath.value;
        for i := 0 to |entries|
          invariant initialised
          invariant testClassDirectories == [testClassesDirectory] + Select(env.fs, entries[..i], ClassDirectory)
          invariant libraryJars == Select(env.fs, entries[..i], LibraryJar)
        {
          var file := entries[i];
          SelectStep(env.fs, entries, i, ClassDirectory);
          SelectStep(env.fs, entries, i, LibraryJar);
          if env.fs.IsDirectory(file) {
            testClassDirectories := testClassDirectories + [file];
          } else if env.fs.IsFile(file) && EndsWith(BaseName(file), JarExt) {
            libraryJars := libraryJars + [file];
          }
        }
        assert entries[..|entries|] == entries;
      } else {
        assert Entries(testClasspath) == [];
      }
    }

    /**
      Prepares the classpath, rejects an empty name, and answers the file of
      `<name>.class` in the first directory that holds it, or else what the
      archives yield.
     */
    method GetSuperTestClassFile(superClassName: Option<ClassName>) returns (r: Result<Option<Path>>)
      requires Valid()
      modifies this`initialised, this`testClassDirectories, this`libraryJars
      ensures Valid() && initialised
      ensures old(initialised) ==> unchanged(this)
      ensures r == SuperClassFile(env.fs, Index(), env.libraryClassFile, superClassName)
    {
      PrepareClasspath();
      if superClassName.None? || superClassName.value == "" {
        return Err(IllegalArgument("superClassName is empty!"));
      }
      var fileName := ClassFileName(superClassName.value);
      var found := SearchDirectories(env.fs, testClassDirectories, fileName);
      if found.Some? {
        r := Ok(found);
      } else {
        r := Ok(env.libraryClassFile(libraryJars, superClassName.value));
      }
    }

    /** Reads a class file through the bytecode reader; a failure carries the file's path. */
    method ClassVisitor(f: Path) returns (r: Result<ClassDescriptor>)
      modifies this`readLog
      ensures readLog == old(readLog) + [f]
      ensures r == ReadClass(env.fs, f)
    {
      readLog := readLog + [f];
      if f in env.fs.classFiles {
        r := Ok(env.fs.classFiles[f]);
      } else {
        r := Err(ClassFileUnreadable(f));
      }
    }

    /**
      Publishes a class only when it is a test, is not abstract, and is not
      being visited as another class's superclass.
     */
    method PublishTestClass(isTest: bool, d: ClassDescriptor, superClass: bool)
      modifies this`published
      ensures published == old(published)
        + (if isTest && !d.isAbstract && !superClass then [ClassFileName(d.name)] else [])
    {
      if isTest && !d.isAbstract && !superClass {
        published := published + [ClassFileName(d.name)];
      }
    }

    /** Hands a class name to the sink directly, without any detection. */
    method ManualTestClass(testClassName: string)
      modifies this`published
      ensures published == old(published) + [testClassName]
    {
      published := published + [testClassName];
    }

    /** Appends the non-null, non-empty names, dots replaced by slashes, in argument order. */
    method AddKnownTestCaseClassNames(names: seq<Option<string>>)
      requires Valid()
      modifies this`knownTestCaseClassNames
      ensures Valid()
      ensures knownTestCaseClassNames == old(knownTestCaseClassNames) + NormalisedNames(names)
    {
      for i := 0 to |names|
        invariant knownTestCaseClassNames == old(knownTestCaseClassNames) + NormalisedNames(names[..i])
        invariant forall n :: n in knownTestCaseClassNames ==> IsInternalName(n)
      {
        assert names[..i + 1][..i] == names[..i];
        var name := names[i];
        if name.Some? && name.value != "" {
          knownTestCaseClassNames := knownTestCaseClassNames + [DottedToInternal(name.value)];
        }
      }
      assert names[..|names|] == names;
    }

    /**
      Registration as evidently intended: the names grow exactly as with
      AddKnownTestCaseClassNames, and the cached `false` verdicts, which the
      new names may have made wrong, are dropped; the cached `true` verdicts
      stay right and are kept.
     */
    method AddKnownTestCaseClassNamesRevalidating(names: seq<Option<string>>, ghost rank: Path -> nat)
      requires Valid()
      modifies this`knownTestCaseClassNames, this`superClasses
      ensures Valid()
      ensures knownTestCaseClassNames == old(knownTestCaseClassNames) + NormalisedNames(names)
      ensures superClasses == map g | g in old(superClasses) && old(superClasses)[g] :: true
      ensures old(CacheExact(rank)) ==> CacheExact(rank)
    {
      AddKnownTestCaseClassNames(names);
      superClasses := map g | g in superClasses && superClasses[g] :: true;
      if old(CacheExact(rank)) {
        TrueEntriesStayExact(env, Index(), old(knownTestCaseClassNames), knownTestCaseClassNames,
                             old(superClasses), rank);
      }
    }

    /** True exactly when the name is present, non-empty and registered; nothing changes. */
    method IsKnownTestCaseClassName(testCaseClassName: Option<ClassName>) returns (isKnown: bool)
      ensures isKnown <==> (testCaseClassName.Some? && testCaseClassName.value != ""
                            && testCaseClassName.value in knownTestCaseClassNames)
    {
      isKnown := false;
      if testCaseClassName.Some? && testCaseClassName.value != "" {
        var i := 0;
        while !isKnown && i < |knownTestCaseClassNames|
          invariant 0 <= i <= |knownTestCaseClassNames|
          invariant !isKnown ==> testCaseClassName.value !in knownTestCaseClassNames[..i]
          invariant isKnown ==> testCaseClassName.value in knownTestCaseClassNames
        {
          if knownTestCaseClassNames[i] == testCaseClassName.value {
            isKnown := true;
          }
          i := i + 1;
        }
      }
    }

    /**
      The sample processTestClass(file, superClass) of a framework: reads the
      class, decides it by the local predicate, then by a known superclass
      name, then by the superclass file through the cache; publishes it when
      it is a concrete test visited for its own sake.
     */
    method ClassifyTestClass(f: Path, superClass: bool, ghost rank: Path -> nat) returns (r: Result<bool>)
      requires Valid() && Ranked(env, Index(), knownTestCaseClassNames, rank, f)
      modifies this
      ensures knownTestCaseClassNames == old(knownTestCaseClassNames) && Valid()
      ensures r == CachedVerdictOf(old(superClasses), rank, f)
      ensures published == old(published)
        + (if r == Ok(true) && !superClass && !env.fs.classFiles[f].isAbstract
           then [ClassFileName(env.fs.classFiles[f].name)] else [])
      ensures GrownFrom(old(superClasses), Ancestors(env, Index(), knownTestCaseClassNames, rank, f), rank)
      ensures r.Err? ==> superClasses == old(superClasses)
      ensures old(readLog) + [f] <= readLog
      ensures r.Ok? && Parent(env, Index(), f).Some? && !TestRoot(env, knownTestCaseClassNames, f)
              ==> Parent(env, Index(), f).value in superClasses
      ensures TestRoot(env, knownTestCaseClassNames, f) || Parent(env, Index(), f).None?
              || Parent(env, Index(), f).value in old(superClasses)
              ==> readLog == old(readLog) + [f] && superClasses == old(superClasses)
      decreases rank(f), 2
    {
      var visited := ClassVisitor(f);
      if visited.Err? {
        return Err(visited.error);
      }
      var isTest := DecideTestClass(f, visited.value, rank);
      if isTest.Err? {
        return isTest;
      }
      PublishTestClass(isTest.value, visited.value, superClass);
      r := isTest;
    }

    /**
      The decision for a class already read: the local predicate first, then
      a known superclass name, and only then the superclass file.
     */
    method DecideTestClass(f: Path, d: ClassDescriptor, ghost rank: Path -> nat) returns (r: Result<bool>)
      requires Valid() && Ranked(env, Index(), knownTestCaseClassNames, rank, f)
      requires f in env.fs.classFiles && d == env.fs.classFiles[f]
      modifies this
      ensures knownTestCaseClassNames == old(knownTestCaseClassNames) && Valid()
      ensures r == CachedVerdictOf(old(superClasses), rank, f)
      ensures published == old(published)
      ensures GrownFrom(old(superClasses), Ancestors(env, Index(), knownTestCaseClassNames, rank, f), rank)
      ensures r.Err? ==> superClasses == old(superClasses)
      ensures old(readLog) <= readLog
      ensures r.Ok? && Parent(env, Index(), f).Some? && !TestRoot(env, knownTestCaseClassNames, f)
              ==> Parent(env, Index(), f).value in superClasses
      ensures TestRoot(env, knownTestCaseClassNames, f) || Parent(env, Index(), f).None?
              || Parent(env, Index(), f).value in old(superClasses)
              ==> readLog == old(readLog) && superClasses == old(superClasses)
      decreases rank(f), 1
    {
      if env.isLocalTest(d) {
        return Ok(true);
      }
      var isKnown := IsKnownTestCaseClassName(d.superName);
      if isKnown {
        return Ok(true);
      }
      r := SuperClassVerdict(f, d, rank);
    }

    /**
      The superclass step: resolves the superclass name to a file, failing on
      a null or empty name, and asks the memo about that file; a superclass
      found nowhere makes the class no test.
     */
    method SuperClassVerdict(f: Path, d: ClassDescriptor, ghost rank: Path -> nat) returns (r: Result<bool>)
      requires Valid() && Ranked(env, Index(), knownTestCaseClassNames, rank, f)
      requires f in env.fs.classFiles && d == env.fs.classFiles[f]
      requires !TestRoot(env, knownTestCaseClassNames, f)
      modifies this
      ensures knownTestCaseClassNames == old(knownTestCaseClassNames) && Valid()
      ensures r == CachedVerdictOf(old(superClasses), rank, f)
      ensures published == old(published)
      ensures GrownFrom(old(superClasses), Ancestors(env, Index(), knownTestCaseClassNames, rank, f), rank)
      ensures r.Err? ==> superClasses == old(superClasses)
      ensures old(readLog) <= readLog
      ensures r.Ok? && Parent(env, Index(), f).Some? ==> Parent(env, Index(), f).value in superClasses
      ensures Parent(env, Index(), f).None? || Parent(env, Index(), f).value in old(superClasses)
              ==> readLog == old(readLog) && superClasses == old(superClasses)
      decreases rank(f), 0
    {
      var superClassFile := GetSuperTestClassFile(d.superName);
      if superClassFile.Err? {
        return Err(superClassFile.error);
      }
      if superClassFile.value.None? {
        return Ok(false);
      }
      var g := superClassFile.value.value;
      assert Parent(env, Index(), f) == Some(g);
      RankedParent(env, Index(), knownTestCaseClassNames, rank, f);
      assert Ancestors(env, Index(), knownTestCaseClassNames, rank, f)
             == {g} + Ancestors(env, Index(), knownTestCaseClassNames, rank, g);
      r := ProcessSuperClass(g, rank);
    }

    /**
      processTestClass(file): the class is visited for its own sake. While
      every cached verdict is right, the answer is the verdict without cache
      and the cache stays right.
     */
    method ProcessTestClass(f: Path, ghost rank: Path -> nat) returns (r: Result<bool>)
      requires Valid() && Ranked(env, Index(), knownTestCaseClassNames, rank, f)
      modifies this
      ensures knownTestCaseClassNames == old(knownTestCaseClassNames) && Valid()
      ensures r == CachedVerdictOf(old(superClasses), rank, f)
      ensures old(CacheExact(rank)) ==> CacheExact(rank) && r == VerdictOf(rank, f)
      ensures published == old(published)
        + (if r == Ok(true) && !env.fs.classFiles[f].isAbstract
           then [ClassFileName(env.fs.classFiles[f].name)] else [])
      ensures GrownFrom(old(superClasses), Ancestors(env, Index(), knownTestCaseClassNames, rank, f), rank)
      ensures r.Err? ==> superClasses == old(superClasses)
      ensures old(readLog) + [f] <= readLog
      ensures r.Ok? && Parent(env, Index(), f).Some? && !TestRoot(env, knownTestCaseClassNames, f)
              ==> Parent(env, Index(), f).value in superClasses
      ensures TestRoot(env, knownTestCaseClassNames, f) || Parent(env, Index(), f).None?
              || Parent(env, Index(), f).value in old(superClasses)
              ==> readLog == old(readLog) + [f] && superClasses == old(superClasses)
    {
      r := ClassifyTestClass(f, false, rank);
      if old(CacheExact(rank)) {
        ExtendExact(env, Index(), knownTestCaseClassNames, old(superClasses), superClasses,
                    Ancestors(env, Index(), knownTestCaseClassNames, rank, f), rank);
        CachedVerdictExact(env, Index(), knownTestCaseClassNames, old(superClasses), rank, f);
      }
    }

    /**
      The memo over superclass files: a cached verdict is returned without
      reading anything, right or not; otherwise the file is read and
      classified as a superclass, and its verdict stored under it.
     */
    method ProcessSuperClass(f: Path, ghost rank: Path -> nat) returns (r: Result<bool>)
      requires Valid() && Ranked(env, Index(), knownTestCaseClassNames, rank, f)
      modifies this
      ensures knownTestCaseClassNames == old(knownTestCaseClassNames) && Valid()
      ensures published == old(published)
      ensures old(f in superClasses) ==> r == Ok(old(superClasses)[f]) && unchanged(this)
      ensures !old(f in superClasses) ==>
        && r == CachedVerdictOf(old(superClasses), rank, f)
        && |readLog| > |old(readLog)| && readLog[|old(readLog)|] == f
      ensures r.Ok? ==> f in superClasses && superClasses[f] == r.value
      ensures GrownFrom(old(superClasses), {f} + Ancestors(env, Index(), knownTestCaseClassNames, rank, f), rank)
      ensures r.Err? ==> superClasses == old(superClasses)
      ensures old(readLog) <= readLog
      decreases rank(f), 3
    {
      if f in superClasses {
        return Ok(superClasses[f]);
      }
      ghost var before := superClasses;
      r := ClassifyTestClass(f, true, rank);
      if r.Ok? {
        GrownStore(env, Index(), knownTestCaseClassNames, before, superClasses,
                   Ancestors(env, Index(), knownTestCaseClassNames, rank, f), rank, f, r.value);
        superClasses := superClasses[f := r.value];
      }
    }
  }
}

=== FILE: hierarchy.dfy ===
/**
  What it means for a class file to be a test: the verdict the detector
  computes, stated without a cache, over an environment (the file system, the
  archive lookup, and the framework's own local test predicate). The sample
  framework rule is the base-class rule: a class is a test when the
  framework's local predicate accepts it, when its superclass name is a known
  test-case name, or when its superclass file resolves and is itself a test.
 */
module Hierarchy {
  import opened Types
  import opened Names
  import opened Classpath

  /**
    The outside world of one detector: the file system, the archive lookup
    (which class file, if any, the registered archives yield for a name) and
    the framework-specific local test predicate (annotations, interfaces).
   */
  datatype Environment = Environment(
    fs: FileSystem,
    libraryClassFile: (seq<Path>, ClassName) -> Option<Path>,
    isLocalTest: ClassDescriptor -> bool)

  /** Reading a class file; any failure becomes an error that carries the file's path. */
  function ReadClass(fs: FileSystem, f: Path): (r: Result<ClassDescriptor>)
    ensures r.Ok? <==> f in fs.classFiles
    ensures r.Err? ==> r.error == ClassFileUnreadable(f)
  {
    if f in fs.classFiles then Ok(fs.classFiles[f]) else Err(ClassFileUnreadable(f))
  }

  /** A known test-case name: present, non-empty and in the list. */
  predicate IsKnownName(known: seq<ClassName>, name: Option<ClassName>) {
    name.Some? && name.value != "" && name.value in known
  }

  /**
    The file the superclass of `f` resolves to, if `f` is readable and its
    superclass name resolves: `<superclass>.class` in a searched directory
    that holds it, or whatever the archive lookup yields.
   */
  ghost function Parent(env: Environment, cp: ClasspathIndex, f: Path): (r: Option<Path>)
    ensures r.Some? ==>
      && f in env.fs.classFiles
      && env.fs.classFiles[f].superName.Some? && env.fs.classFiles[f].superName.value != ""
      && ((exists i :: 0 <= i < |cp.directories|
             && r.value == Child(cp.directories[i], ClassFileName(env.fs.classFiles[f].superName.value))
             && env.fs.Exists(r.value))
          || r == env.libraryClassFile(cp.jars, env.fs.classFiles[f].superName.value))
  {
    if f in env.fs.classFiles then
      match SuperClassFile(env.fs, cp, env.libraryClassFile, env.fs.classFiles[f].superName)
      case Ok(Some(g)) => Some(g)
      case _ => None
    else None
  }

  /** A class that is a test on its own account: the local predicate accepts it or its superclass name is known. */
  ghost predicate TestRoot(env: Environment, known: seq<ClassName>, f: Path) {
    f in env.fs.classFiles &&
    (env.isLocalTest(env.fs.classFiles[f]) || IsKnownName(known, env.fs.classFiles[f].superName))
  }

  /**
    `rank` strictly decreases from every class file ranked no higher than `f`
    that is no test root to the file its superclass resolves to: the chain
    of superclass lookups from `f`, which stops at the first test root, is
    finite and free of cycles. Files ranked above `f`, which that chain never
    reaches, and files behind a test root may resolve in a cycle.
   */
  ghost predicate Ranked(env: Environment, cp: ClasspathIndex, known: seq<ClassName>, rank: Path -> nat, f: Path) {
    forall g :: rank(g) <= rank(f) && !TestRoot(env, known, g) && Parent(env, cp, g).Some?
                ==> rank(Parent(env, cp, g).value) < rank(g)
  }

  /** The superclass file of a ranked file that is no test root is ranked lower, and ranked itself. */
  lemma RankedParent(env: Environment, cp: ClasspathIndex, known: seq<ClassName>, rank: Path -> nat, f: Path)
    requires Ranked(env, cp, known, rank, f) && !TestRoot(env, known, f) && Parent(env, cp, f).Some?
    ensures rank(Parent(env, cp, f).value) < rank(f) && Ranked(env, cp, known, rank, Parent(env, cp, f).value)
  {
  }

  /** More known names make more test roots, so a ranked chain stays ranked. */
  lemma RankedMore(env: Environment, cp: ClasspathIndex, known: seq<ClassName>, more: seq<ClassName>,
                   rank: Path -> nat, f: Path)
    requires Ranked(env, cp, known, rank, f)
    requires forall n :: n in known ==> n in more
    ensures Ranked(env, cp, more, rank, f)
  {
  }

  /**
    The files reached from `f` by resolving superclasses until a test root,
    `f` itself excluded.
   */
  ghost function Ancestors(env: Environment, cp: ClasspathIndex, known: seq<ClassName>,
                           rank: Path -> nat, f: Path): set<Path>
    requires Ranked(env, cp, known, rank, f)
    decreases rank(f)
  {
    if TestRoot(env, known, f) then {}
    else match Parent(env, cp, f)
      case None => {}
      case Some(g) => RankedParent(env, cp, known, rank, f); {g} + Ancestors(env, cp, known, rank, g)
  }

  /**
    The verdict for the class file `f` under the known names `known`, without
    any cache: a read failure is an error; a class the local predicate
    accepts, or whose superclass name is known, is a test; otherwise the
    superclass name is looked up, a null or empty name is an error, a
    superclass file found nowhere makes the class no test, and a found one
    makes it a test exactly when that file is.
   */
  ghost function Verdict(env: Environment, cp: ClasspathIndex, known: seq<ClassName>, rank: Path -> nat, f: Path): (r: Result<bool>)
    requires Ranked(env, cp, known, rank, f)
    ensures r.Ok? ==> f in env.fs.classFiles
    ensures TestRoot(env, known, f) ==> r == Ok(true)
    ensures r.Err? && r.error.ClassFileUnreadable? ==>
              r.error.path == f || r.error.path in Ancestors(env, cp, known, rank, f)
    decreases rank(f)
  {
    match ReadClass(env.fs, f)
    case Err(e) => Err(e)
    case Ok(d) =>
      if env.isLocalTest(d) || IsKnownName(known, d.superName) then Ok(true)
      else match SuperClassFile(env.fs, cp, env.libraryClassFile, d.superName)
        case Err(e) => Err(e)
        case Ok(None) => Ok(false)
        case Ok(Some(g)) =>
          assert Parent(env, cp, f) == Some(g);
          RankedParent(env, cp, known, rank, f);
          Verdict(env, cp, known, rank, g)
  }

  /**
    The verdict the detector answers while its superclass cache holds
    `cache`: as `Verdict`, except that a superclass file already in the cache
    is answered from the cache, whether or not that entry is still right.
   */
  ghost function CachedVerdict(env: Environment, cp: ClasspathIndex, known: seq<ClassName>,
                               cache: map<Path, bool>, rank: Path -> nat, f: Path): (r: Result<bool>)
    requires Ranked(env, cp, known, rank, f)
    ensures r.Ok? ==> f in env.fs.classFiles
    ensures TestRoot(env, known, f) ==> r == Ok(true)
    ensures r.Err? && r.error.ClassFileUnreadable? ==>
              r.error.path == f || r.error.path in Ancestors(env, cp, known, rank, f)
    decreases rank(f)
  {
    match ReadClass(env.fs, f)
    case Err(e) => Err(e)
    case Ok(d) =>
      if env.isLocalTest(d) || IsKnownName(known, d.superName) then Ok(true)
      else match SuperClassFile(env.fs, cp, env.libraryClassFile, d.superName)
        case Err(e) => Err(e)
        case Ok(None) => Ok(false)
        case Ok(Some(g)) =>
          assert Parent(env, cp, f) == Some(g);
          RankedParent(env, cp, known, rank, f);
          if g in cache then Ok(cache[g]) else CachedVerdict(env, cp, known, cache, rank, g)
  }

  /** Every cached verdict is the verdict of its file. */
  ghost predicate Exact(env: Environment, cp: ClasspathIndex, known: seq<ClassName>,
                        cache: map<Path, bool>, rank: Path -> nat) {
    forall g :: g in cache ==> Ranked(env, cp, known, rank, g) && Verdict(env, cp, known, rank, g) == Ok(cache[g])
  }

  /**
    `after` keeps every entry of `before` and adds entries only for ranked
    files in `reached`, each holding the answer computed while the cache was
    `before`.
   */
  ghost predicate Grown(env: Environment, cp: ClasspathIndex, known: seq<ClassName>,
                        before: map<Path, bool>, after: map<Path, bool>, reached: set<Path>, rank: Path -> nat)
  {
    && (forall g :: g in before ==> g in after && after[g] == before[g])
    && (forall g :: g in after && g !in before ==>
          && g in reached && Ranked(env, cp, known, rank, g)
          && Ok(after[g]) == CachedVerdict(env, cp, known, before, rank, g))
  }

  /** Storing the answer for a file not cached before keeps the growth well-formed. */
  lemma GrownStore(env: Environment, cp: ClasspathIndex, known: seq<ClassName>,
                   before: map<Path, bool>, after: map<Path, bool>, reached: set<Path>, rank: Path -> nat,
                   f: Path, v: bool)
    requires Grown(env, cp, known, before, after, reached, rank)
    requires Ranked(env, cp, known, rank, f) && f !in before && Ok(v) == CachedVerdict(env, cp, known, before, rank, f)
    ensures Grown(env, cp, known, before, after[f := v], {f} + reached, rank)
  {
  }

  /** While every cached verdict is right, answering from the cache changes no verdict. */
  lemma {:induction false} CachedVerdictExact(env: Environment, cp: ClasspathIndex, known: seq<ClassName>,
                                              cache: map<Path, bool>, rank: Path -> nat, f: Path)
    requires Exact(env, cp, known, cache, rank) && Ranked(env, cp, known, rank, f)
    ensures CachedVerdict(env, cp, known, cache, rank, f) == Verdict(env, cp, known, rank, f)
    decreases rank(f)
  {
    var p := Parent(env, cp, f);
    if !TestRoot(env, known, f) && p.Some? && p.value !in cache {
      RankedParent(env, cp, known, rank, f);
      CachedVerdictExact(env, cp, known, cache, rank, p.value);
    }
  }

  /**
    Extending a right cache by entries that hold the answers computed from it
    keeps every cached verdict right.
   */
  lemma ExtendExact(env: Environment, cp: ClasspathIndex, known: seq<ClassName>,
                    before: map<Path, bool>, after: map<Path, bool>, reached: set<Path>, rank: Path -> nat)
    requires Exact(env, cp, known, before, rank)
    requires Grown(env, cp, known, before, after, reached, rank)
    ensures Exact(env, cp, known, after, rank)
  {
    forall g | g in after && g !in before
      ensures Verdict(env, cp, known, rank, g) == Ok(after[g])
    {
      CachedVerdictExact(env, cp, known, before, rank, g);
    }
  }

  /**
    The memo over superclass files answers right while its cache is right:
    the stored verdict on a hit, the computed one on a miss, and either is
    the verdict without cache.
   */
  lemma MemoAnswerExact(env: Environment, cp: ClasspathIndex, known: seq<ClassName>,
                        cache: map<Path, bool>, rank: Path -> nat, f: Path)
    requires Exact(env, cp, known, cache, rank) && Ranked(env, cp, known, rank, f)
    ensures (if f in cache then Ok(cache[f]) else CachedVerdict(env, cp, known, cache, rank, f))
            == Verdict(env, cp, known, rank, f)
  {
    if f !in cache {
      CachedVerdictExact(env, cp, known, cache, rank, f);
    }
  }

  /**
    Keeping only the cached `true` verdicts keeps a cache right when more
    names become known: a cached `false` may turn wrong, a `true` cannot.
   */
  lemma TrueEntriesStayExact(env: Environment, cp: ClasspathIndex, known: seq<ClassName>, more: seq<ClassName>,
                             cache: map<Path, bool>, rank: Path -> nat)
    requires Exact(env, cp, known, cache, rank)
    requires forall n :: n in known ==> n in more
    ensures Exact(env, cp, more, map g | g in cache && cache[g] :: true, rank)
  {
    forall g | g in cache && cache[g]
      ensures Ranked(env, cp, more, rank, g) && Verdict(env, cp, more, rank, g) == Ok(true)
    {
      VerdictMonotone(env, cp, known, more, rank, g);
    }
  }

  /** A chain of class files, each resolving its superclass to the next, ending at a test root. */
  ghost predicate TestChain(env: Environment, cp: ClasspathIndex, known: seq<ClassName>, chain: seq<Path>) {
    && |chain| > 0
    && TestRoot(env, known, chain[|chain| - 1])
    && forall i :: 0 <= i < |chain| - 1 ==> Parent(env, cp, chain[i]) == Some(chain[i + 1])
  }

  lemma {:induction false} TestChainFromVerdict(env: Environment, cp: ClasspathIndex, known: seq<ClassName>,
                                                 rank: Path -> nat, f: Path) returns (chain: seq<Path>)
    requires Ranked(env, cp, known, rank, f)
    requires Verdict(env, cp, known, rank, f) == Ok(true)
    ensures TestChain(env, cp, known, chain) && chain[0] == f
    decreases rank(f)
  {
    if TestRoot(env, known, f) {
      chain := [f];
    } else {
      var g := Parent(env, cp, f).value;
      RankedParent(env, cp, known, rank, f);
      var rest := TestChainFromVerdict(env, cp, known, rank, g);
      chain := [f] + rest;
      forall i | 0 <= i < |chain| - 1
        ensures Parent(env, cp, chain[i]) == Some(chain[i + 1])
      {
        if i > 0 {
          assert chain[i] == rest[i - 1] && chain[i + 1] == rest[i];
        }
      }
    }
  }

  lemma {:induction false} VerdictFromTestChain(env: Environment, cp: ClasspathIndex, known: seq<ClassName>,
                                                 rank: Path -> nat, chain: seq<Path>)
    requires TestChain(env, cp, known, chain) && Ranked(env, cp, known, rank, chain[0])
    ensures Verdict(env, cp, known, rank, chain[0]) == Ok(true)
    decreases |chain|
  {
    if !TestRoot(env, known, chain[0]) {
      assert Parent(env, cp, chain[0]) == Some(chain[1]);
      RankedParent(env, cp, known, rank, chain[0]);
      assert TestChain(env, cp, known, chain[1..]) by {
        forall i | 0 <= i < |chain[1..]| - 1
          ensures Parent(env, cp, chain[1..][i]) == Some(chain[1..][i + 1])
        {
          assert Parent(env, cp, chain[i + 1]) == Some(chain[i + 2]);
        }
      }
      VerdictFromTestChain(env, cp, known, rank, chain[1..]);
    }
  }

  /**
    A class file is a test exactly when it starts a chain of resolved
    superclass files that ends at a class the local predicate accepts or
    whose superclass name is known: the base-class rule applied transitively.
   */
  lemma VerdictTrueIffTestChain(env: Environment, cp: ClasspathIndex, known: seq<ClassName>,
                                rank: Path -> nat, f: Path)
    requires Ranked(env, cp, known, rank, f)
    ensures Verdict(env, cp, known, rank, f) == Ok(true)
            <==> exists chain :: TestChain(env, cp, known, chain) && chain[0] == f
  {
    if Verdict(env, cp, known, rank, f) == Ok(true) {
      var chain := TestChainFromVerdict(env, cp, known, rank, f);
    }
    if exists chain :: TestChain(env, cp, known, chain) && chain[0] == f {
      var chain :| TestChain(env, cp, known, chain) && chain[0] == f;
      VerdictFromTestChain(env, cp, known, rank, chain);
    }
  }

  /**
    Registering more known names never turns a test into a non-test, so a
    cached `true` verdict stays right when names are added later.
   */
  lemma {:induction false} VerdictMonotone(env: Environment, cp: ClasspathIndex, known: seq<ClassName>,
                                           more: seq<ClassName>, rank: Path -> nat, f: Path)
    requires Ranked(env, cp, known, rank, f)
    requires forall n :: n in known ==> n in more
    requires Verdict(env, cp, known, rank, f) == Ok(true)
    ensures Ranked(env, cp, more, rank, f)
    ensures Verdict(env, cp, more, rank, f) == Ok(true)
    decreases rank(f)
  {
    RankedMore(env, cp, known, more, rank, f);
    var d := env.fs.classFiles[f];
    if !env.isLocalTest(d) && !IsKnownName(more, d.superName) {
      RankedParent(env, cp, known, rank, f);
      VerdictMonotone(env, cp, known, more, rank, Parent(env, cp, f).value);
    }
  }

  /** A class whose superclass file is found nowhere, and that is no test root, is not a test. */
  lemma MissingAncestorNotTest(env: Environment, cp: ClasspathIndex, known: seq<ClassName>, rank: Path -> nat, f: Path)
    requires Ranked(env, cp, known, rank, f)
    requires f in env.fs.classFiles && !TestRoot(env, known, f)
    requires SuperClassFile(env.fs, cp, env.libraryClassFile, env.fs.classFiles[f].superName) == Ok(None)
    ensures Verdict(env, cp, known, rank, f) == Ok(false)
  {
  }

  /** A chain of class files that are no test roots, each resolving its superclass to the next. */
  ghost predicate ResolvedChain(env: Environment, cp: ClasspathIndex, known: seq<ClassName>, chain: seq<Path>) {
    && |chain| > 0
    && forall i :: 0 <= i < |chain| - 1 ==>
         !TestRoot(env, known, chain[i]) && Parent(env, cp, chain[i]) == Some(chain[i + 1])
  }

  /** A readable class, no test root, whose superclass file neither a directory nor an archive yields. */
  ghost predicate NoTestEnd(env: Environment, cp: ClasspathIndex, known: seq<ClassName>, g: Path) {
    && g in env.fs.classFiles && !TestRoot(env, known, g)
    && SuperClassFile(env.fs, cp, env.libraryClassFile, env.fs.classFiles[g].superName) == Ok(None)
  }

  /**
    A class at which the lookup fails with `e`: it cannot be read, or it is
    no test root and its superclass name is null or empty.
   */
  ghost predicate ErrorEnd(env: Environment, known: seq<ClassName>, g: Path, e: Error) {
    || (g !in env.fs.classFiles && e == ClassFileUnreadable(g))
    || (&& g in env.fs.classFiles && !TestRoot(env, known, g)
        && (env.fs.classFiles[g].superName.None? || env.fs.classFiles[g].superName.value == "")
        && e == IllegalArgument("superClassName is empty!"))
  }

  /** Along a resolved chain of non-roots, every class has the verdict of the last one. */
  lemma {:induction false} ChainVerdict(env: Environment, cp: ClasspathIndex, known: seq<ClassName>,
                                        rank: Path -> nat, chain: seq<Path>)
    requires ResolvedChain(env, cp, known, chain) && Ranked(env, cp, known, rank, chain[0])
    ensures Ranked(env, cp, known, rank, chain[|chain| - 1])
    ensures Verdict(env, cp, known, rank, chain[0]) == Verdict(env, cp, known, rank, chain[|chain| - 1])
    decreases |chain|
  {
    if |chain| > 1 {
      assert Parent(env, cp, chain[0]) == Some(chain[1]);
      RankedParent(env, cp, known, rank, chain[0]);
      assert ResolvedChain(env, cp, known, chain[1..]) by {
        forall i | 0 <= i < |chain[1..]| - 1
          ensures !TestRoot(env, known, chain[1..][i]) && Parent(env, cp, chain[1..][i]) == Some(chain[1..][i + 1])
        {
          assert !TestRoot(env, known, chain[i + 1]) && Parent(env, cp, chain[i + 1]) == Some(chain[i + 2]);
        }
      }
      ChainVerdict(env, cp, known, rank, chain[1..]);
    }
  }

  /**
    A class that is not a test starts a resolved chain of non-roots that ends
    at a class whose superclass does not resolve to a file, and whose verdict
    is the class's own.
   */
  lemma {:induction false} WalkFromVerdict(env: Environment, cp: ClasspathIndex, known: seq<ClassName>,
                                            rank: Path -> nat, f: Path) returns (chain: seq<Path>)
    requires Ranked(env, cp, known, rank, f) && Verdict(env, cp, known, rank, f) != Ok(true)
    ensures ResolvedChain(env, cp, known, chain) && chain[0] == f
    ensures !TestRoot(env, known, chain[|chain| - 1]) && Parent(env, cp, chain[|chain| - 1]).None?
    ensures Ranked(env, cp, known, rank, chain[|chain| - 1])
    ensures Verdict(env, cp, known, rank, chain[|chain| - 1]) == Verdict(env, cp, known, rank, f)
    decreases rank(f)
  {
    match Parent(env, cp, f)
    case None =>
      chain := [f];
    case Some(g) =>
      RankedParent(env, cp, known, rank, f);
      var rest := WalkFromVerdict(env, cp, known, rank, g);
      chain := [f] + rest;
      forall i | 0 <= i < |chain| - 1
        ensures !TestRoot(env, known, chain[i]) && Parent(env, cp, chain[i]) == Some(chain[i + 1])
      {
        if i > 0 {
          assert chain[i] == rest[i - 1] && chain[i + 1] == rest[i];
        }
      }
  }

  /**
    A class file is judged no test exactly when it starts a resolved chain of
    non-roots ending at a class whose superclass is found nowhere.
   */
  lemma VerdictFalseIffChain(env: Environment, cp: ClasspathIndex, known: seq<ClassName>,
                             rank: Path -> nat, f: Path)
    requires Ranked(env, cp, known, rank, f)
    ensures Verdict(env, cp, known, rank, f) == Ok(false)
            <==> exists chain :: ResolvedChain(env, cp, known, chain) && chain[0] == f
                                 && NoTestEnd(env, cp, known, chain[|chain| - 1])
  {
    if Verdict(env, cp, known, rank, f) == Ok(false) {
      var chain := WalkFromVerdict(env, cp, known, rank, f);
      assert NoTestEnd(env, cp, known, chain[|chain| - 1]);
    }
    if exists chain :: ResolvedChain(env, cp, known, chain) && chain[0] == f
                       && NoTestEnd(env, cp, known, chain[|chain| - 1]) {
      var chain :| ResolvedChain(env, cp, known, chain) && chain[0] == f
                   && NoTestEnd(env, cp, known, chain[|chain| - 1]);
      ChainVerdict(env, cp, known, rank, chain);
    }
  }

  /**
    A class file's verdict is the error `e` exactly when it starts a resolved
    chain of non-roots ending at an unreadable class file (`e` names it) or at
    a class whose superclass name is null or empty (`e` is the illegal
    argument): the error propagates from the superclass to every subclass.
   */
  lemma VerdictErrIffChain(env: Environment, cp: ClasspathIndex, known: seq<ClassName>,
                           rank: Path -> nat, f: Path, e: Error)
    requires Ranked(env, cp, known, rank, f)
    ensures Verdict(env, cp, known, rank, f) == Err(e)
            <==> exists chain :: ResolvedChain(env, cp, known, chain) && chain[0] == f
                                 && ErrorEnd(env, known, chain[|chain| - 1], e)
  {
    if Verdict(env, cp, known, rank, f) == Err(e) {
      var chain := WalkFromVerdict(env, cp, known, rank, f);
      assert ErrorEnd(env, known, chain[|chain| - 1], e);
    }
    if exists chain :: ResolvedChain(env, cp, known, chain) && chain[0] == f
                       && ErrorEnd(env, known, chain[|chain| - 1], e) {
      var chain :| ResolvedChain(env, cp, known, chain) && chain[0] == f
                   && ErrorEnd(env, known, chain[|chain| - 1], e);
      ChainVerdict(env, cp, known, rank, chain);
    }
  }

  /** A class that is no test root and whose superclass file cannot be read fails with that file's path. */
  lemma UnreadableSuperclassFails(env: Environment, cp: ClasspathIndex, known: seq<ClassName>,
                                  rank: Path -> nat, f: Path, g: Path)
    requires Ranked(env, cp, known, rank, f)
    requires !TestRoot(env, known, f) && Parent(env, cp, f) == Some(g) && g !in env.fs.classFiles
    ensures Verdict(env, cp, known, rank, f) == Err(ClassFileUnreadable(g))
  {
    var chain := [f, g];
    assert ResolvedChain(env, cp, known, chain) && ErrorEnd(env, known, chain[|chain| - 1], ClassFileUnreadable(g));
    VerdictErrIffChain(env, cp, known, rank, f, ClassFileUnreadable(g));
  }
}

=== FILE: names.dfy ===
/**
  String rules of the detector: class-file names, the dotted-to-internal
  normalisation of known test-case names (section 4.2.1 of the Java Virtual
  Machine Specification), path components and the archive suffix test.
 */
module Names {
  import opened Types

  const ClassFileExt: string := ".class"
  const JarExt: string := ".jar"

  /** The JUnit 3 base class every detector knows from the start. */
  const TestCase: ClassName := "junit/framework/TestCase"
  /** The Groovy base class every detector knows from the start. */
  const GroovyTestCase: ClassName := "groovy/util/GroovyTestCase"

  predicate EndsWith(s: string, suffix: string) {
    |suffix| <= |s| && s[|s| - |suffix|..] == suffix
  }

  /** A name in internal form: non-empty and free of dots. */
  predicate IsInternalName(n: string) {
    n != [] && '.' !in n
  }

  /** The class-file name of a class: the class name followed by ".class". */
  function ClassFileName(name: ClassName): (r: string)
    ensures |r| == |name| + |ClassFileExt|
    ensures r[..|name|] == name && EndsWith(r, ClassFileExt)
  {
    name + ClassFileExt
  }

  /** Distinct classes have distinct class-file names, so publication never merges two classes. */
  lemma ClassFileNameInjective(a: ClassName, b: ClassName)
    requires ClassFileName(a) == ClassFileName(b)
    ensures a == b
  {
    assert |a| == |b|;
    assert a == ClassFileName(a)[..|a|];
    assert b == ClassFileName(b)[..|b|];
  }

  /** The file a java.io.File(parent, child) denotes. */
  function Child(directory: Path, child: string): Path {
    directory + "/" + child
  }

  function InternalChar(c: char): char {
    if c == '.' then '/' else c
  }

  /**
    String.replaceAll("\\.", "/"): every dot becomes a slash and every other
    character is kept in place.
   */
  function DottedToInternal(s: string): (r: string)
    ensures |r| == |s|
    ensures '.' !in r
    ensures forall i :: 0 <= i < |s| && s[i] != '.' ==> r[i] == s[i]
    ensures forall i :: 0 <= i < |s| && s[i] == '.' ==> r[i] == '/'
  {
    seq(|s|, i requires 0 <= i < |s| => InternalChar(s[i]))
  }

  /** A name already in internal form is left as it is. */
  lemma DottedToInternalFixes(s: string)
    requires '.' !in s
    ensures DottedToInternal(s) == s
  {
  }

  /** Normalisation is idempotent. */
  lemma DottedToInternalIdempotent(s: string)
    ensures DottedToInternal(DottedToInternal(s)) == DottedToInternal(s)
  {
  }

  /**
    The names addKnownTestCaseClassNames appends, in argument order: null and
    empty arguments are skipped, every other one is normalised. Duplicates
    are kept.
   */
  function NormalisedNames(names: seq<Option<string>>): (r: seq<ClassName>)
    ensures |r| <= |names|
    ensures forall n :: n in r ==> IsInternalName(n)
  {
    if names == [] then []
    else
      var last := names[|names| - 1];
      NormalisedNames(names[..|names| - 1])
      + (if last.Some? && last.value != "" then [DottedToInternal(last.value)] else [])
  }

  /** Registering two argument lists one after the other equals registering their concatenation. */
  lemma {:induction false} NormalisedNamesAppend(a: seq<Option<string>>, b: seq<Option<string>>)
    ensures NormalisedNames(a + b) == NormalisedNames(a) + NormalisedNames(b)
    decreases |b|
  {
    if b == [] {
      assert a + b == a;
    } else {
      var b' := b[..|b| - 1];
      assert (a + b)[..|a + b| - 1] == a + b';
      NormalisedNamesAppend(a, b');
    }
  }

  /**
    When no argument is null or empty, each argument contributes exactly its
    normalised form, at its own position.
   */
  lemma {:induction false} NormalisedNamesAllPresent(names: seq<Option<string>>)
    requires forall i :: 0 <= i < |names| ==> names[i].Some? && names[i].value != ""
    ensures |NormalisedNames(names)| == |names|
    ensures forall i :: 0 <= i < |names| ==> NormalisedNames(names)[i] == DottedToInternal(names[i].value)
  {
    if names != [] {
      NormalisedNamesAllPresent(names[..|names| - 1]);
    }
  }

  /** Two names already in internal form are registered exactly as given, in order. */
  lemma NormalisedInternalPair(a: ClassName, b: ClassName)
    requires IsInternalName(a) && IsInternalName(b)
    ensures NormalisedNames([Some(a), Some(b)]) == [a, b]
  {
    NormalisedNamesAllPresent([Some(a), Some(b)]);
    DottedToInternalFixes(a);
    DottedToInternalFixes(b);
  }

  /** Null and empty arguments contribute nothing. */
  lemma {:induction false} NormalisedNamesAllBlank(names: seq<Option<string>>)
    requires forall i :: 0 <= i < |names| ==> names[i].None? || names[i].value == ""
    ensures NormalisedNames(names) == []
  {
    if names != [] {
      NormalisedNamesAllBlank(names[..|names| - 1]);
    }
  }

  /**
    java.io.File.getName: the last component of a path, i.e. the longest
    suffix without a slash.
   */
  function BaseName(p: Path): (r: string)
    ensures '/' !in r
    ensures EndsWith(p, r)
    ensures |r| < |p| ==> p[|p| - |r| - 1] == '/'
  {
    if p == [] || p[|p| - 1] == '/' then []
    else BaseName(p[..|p| - 1]) + [p[|p| - 1]]
  }

  /** Because ".jar" holds no slash, the archive test on the name is the test on the whole path. */
  lemma JarNameOnWholePath(p: Path)
    ensures EndsWith(BaseName(p), JarExt) <==> EndsWith(p, JarExt)
  {
  }
}

=== FILE: scenario.dfy ===
/**
  A client of the detector: one output directory holding A (extends the known
  base framework/TestCase), B (abstract, extends A) and C (extends B).
 */
module Scenario {
  import opened Types
  import opened Names
  import opened Classpath
  import opened Hierarchy
  import opened Detection

  const Out: Path := "out"
  const FileA: Path := "out/A.class"
  const FileB: Path := "out/B.class"
  const FileC: Path := "out/C.class"

  function SampleFileSystem(): FileSystem {
    FileSystem(
      {Out},
      {FileA, FileB, FileC},
      map[
        FileA := ClassDescriptor("A", Some("framework/TestCase"), false, {}),
        FileB := ClassDescriptor("B", Some("A"), true, {}),
        FileC := ClassDescriptor("C", Some("B"), false, {})])
  }

  function SampleEnvironment(): Environment {
    Environment(SampleFileSystem(), (jars, name) => None, d => false)
  }

  /** Every file sits one step above its superclass file. */
  function SampleRank(p: Path): nat {
    if p == FileA then 0 else if p == FileB then 1 else 2
  }

  /** The known names once the base is registered. */
  const SampleKnown: seq<ClassName> := [TestCase, GroovyTestCase, "framework/TestCase"]

  /** Under the registered names, the chains from A, B and C are all ranked. */
  ghost predicate SampleRanked(env: Environment, cp: ClasspathIndex) {
    && Ranked(env, cp, SampleKnown, SampleRank, FileA)
    && Ranked(env, cp, SampleKnown, SampleRank, FileB)
    && Ranked(env, cp, SampleKnown, SampleRank, FileC)
  }

  lemma SampleDescriptors()
    ensures SampleEnvironment().fs.classFiles.Keys == {FileA, FileB, FileC}
    ensures SampleEnvironment().fs.classFiles[FileA].name == "A" && !SampleEnvironment().fs.classFiles[FileA].isAbstract
    ensures SampleEnvironment().fs.classFiles[FileB].isAbstract
    ensures SampleEnvironment().fs.classFiles[FileC].name == "C" && !SampleEnvironment().fs.classFiles[FileC].isAbstract
  {
  }

  /** The sample classpath: no classpath entries, so only the output directory is searched. */
  lemma SampleIndex()
    ensures IndexClasspath(SampleFileSystem(), Out, None) == ClasspathIndex([Out], [])
  {
  }

  /** A's base is in no directory and no archive, so A has no superclass file. */
  lemma SampleParentOfA()
    ensures Parent(SampleEnvironment(), ClasspathIndex([Out], []), FileA) == None
  {
  }

  /** B's superclass A is found in the output directory. */
  lemma SampleParentOfB()
    ensures Parent(SampleEnvironment(), ClasspathIndex([Out], []), FileB) == Some(FileA)
  {
    assert Child(Out, ClassFileName("A")) == FileA;
  }

  /** C's superclass B is found in the output directory. */
  lemma SampleParentOfC()
    ensures Parent(SampleEnvironment(), ClasspathIndex([Out], []), FileC) == Some(FileB)
  {
    assert Child(Out, ClassFileName("B")) == FileB;
  }

  /** Under the registered names, A is a test on its own account, and B and C are not. */
  lemma SampleRoots()
    ensures TestRoot(SampleEnvironment(), SampleKnown, FileA)
    ensures !TestRoot(SampleEnvironment(), SampleKnown, FileB) && !TestRoot(SampleEnvironment(), SampleKnown, FileC)
  {
    assert "A" != TestCase && "A" != GroovyTestCase && "B" != TestCase && "B" != GroovyTestCase;
  }

  /** Every file with a superclass file is ranked above it, so the chain from C is ranked. */
  lemma SampleRankedAtC()
    ensures Ranked(SampleEnvironment(), ClasspathIndex([Out], []), SampleKnown, SampleRank, FileC)
  {
    SampleParentOfA();
    SampleParentOfB();
    SampleParentOfC();
    forall g | !TestRoot(SampleEnvironment(), SampleKnown, g) && Parent(SampleEnvironment(), ClasspathIndex([Out], []), g).Some?
      ensures SampleRank(Parent(SampleEnvironment(), ClasspathIndex([Out], []), g).value) < SampleRank(g)
    {
      assert g in SampleEnvironment().fs.classFiles;
      assert g == FileB || g == FileC;
    }
  }

  lemma SampleParents()
    ensures Parent(SampleEnvironment(), ClasspathIndex([Out], []), FileA) == None
    ensures Parent(SampleEnvironment(), ClasspathIndex([Out], []), FileB) == Some(FileA)
    ensures Parent(SampleEnvironment(), ClasspathIndex([Out], []), FileC) == Some(FileB)
    ensures SampleRanked(SampleEnvironment(), ClasspathIndex([Out], []))
  {
    SampleParentOfA();
    SampleParentOfB();
    SampleParentOfC();
    SampleRankedAtC();
    SampleRoots();
    RankedParent(SampleEnvironment(), ClasspathIndex([Out], []), SampleKnown, SampleRank, FileC);
    RankedParent(SampleEnvironment(), ClasspathIndex([Out], []), SampleKnown, SampleRank, FileB);
  }

  lemma SampleAncestors()
    requires SampleRanked(SampleEnvironment(), ClasspathIndex([Out], []))
    ensures Ancestors(SampleEnvironment(), ClasspathIndex([Out], []), SampleKnown, SampleRank, FileA) == {}
    ensures Ancestors(SampleEnvironment(), ClasspathIndex([Out], []), SampleKnown, SampleRank, FileB) == {FileA}
    ensures Ancestors(SampleEnvironment(), ClasspathIndex([Out], []), SampleKnown, SampleRank, FileC) == {FileA, FileB}
  {
    SampleParents();
  }

  /** With the base registered, A, B and C are all tests; B and C only through their superclasses. */
  lemma SampleVerdicts()
    requires SampleRanked(SampleEnvironment(), ClasspathIndex([Out], []))
    ensures Verdict(SampleEnvironment(), ClasspathIndex([Out], []), SampleKnown, SampleRank, FileA) == Ok(true)
    ensures Verdict(SampleEnvironment(), ClasspathIndex([Out], []), SampleKnown, SampleRank, FileB) == Ok(true)
    ensures Verdict(SampleEnvironment(), ClasspathIndex([Out], []), SampleKnown, SampleRank, FileC) == Ok(true)
    ensures !TestRoot(SampleEnvironment(), SampleKnown, FileB) && !TestRoot(SampleEnvironment(), SampleKnown, FileC)
  {
    SampleParents();
    SampleRoots();
  }

  /** The dotted base name is registered in internal form. */
  lemma SampleBaseNormalised()
    ensures NormalisedNames([Some("framework.TestCase")]) == ["framework/TestCase"]
  {
    assert DottedToInternal("framework.TestCase") == "framework/TestCase";
  }

  /** A detector over the sample environment, with the base registered and every cached verdict right. */
  ghost predicate SampleDetector(detector: Detector)
    reads detector
  {
    && detector.Valid()
    && detector.env == SampleEnvironment() && detector.Index() == ClasspathIndex([Out], [])
    && detector.knownTestCaseClassNames == SampleKnown
    && SampleRanked(detector.env, detector.Index()) && detector.CacheExact(SampleRank)
  }

  /** A new detector with the base registered under its dotted name, stored in internal form. */
  method Registered() returns (detector: Detector)
    ensures fresh(detector) && SampleDetector(detector)
    ensures detector.superClasses == map[] && detector.published == []
  {
    detector := new Detector(Out, None, SampleEnvironment());
    SampleIndex();
    SampleParents();
    SampleBaseNormalised();
    detector.AddKnownTestCaseClassNames([Some("framework.TestCase")]);
  }

  /** A extends the base directly: it is published, and nothing is cached. */
  method QueryA(detector: Detector)
    requires SampleDetector(detector) && detector.superClasses == map[] && detector.published == []
    modifies detector
    ensures SampleDetector(detector)
    ensures detector.superClasses == map[] && detector.published == [ClassFileName("A")]
  {
    var a := detector.ProcessTestClass(FileA, SampleRank);
    SampleDescriptors();
    SampleParents();
    SampleVerdicts();
    assert a == Ok(true);
  }

  /** Abstract B is a test through A, is not published, and A is cached. */
  method QueryB(detector: Detector) returns (b: Result<bool>)
    requires SampleDetector(detector) && detector.superClasses == map[]
    modifies detector
    ensures b == Ok(true)
    ensures SampleDetector(detector)
    ensures detector.superClasses.Keys == {FileA} && detector.published == old(detector.published)
  {
    b := detector.ProcessTestClass(FileB, SampleRank);
    SampleDescriptors();
    SampleParents();
    SampleAncestors();
    SampleVerdicts();
  }

  /** C is a test through B and A, is published, and B is cached next to A. */
  method QueryC(detector: Detector)
    requires SampleDetector(detector) && detector.superClasses.Keys == {FileA}
    modifies detector
    ensures SampleDetector(detector)
    ensures detector.superClasses.Keys == {FileA, FileB}
    ensures detector.published == old(detector.published) + [ClassFileName("C")]
  {
    var c := detector.ProcessTestClass(FileC, SampleRank);
    SampleDescriptors();
    SampleParents();
    SampleAncestors();
    SampleVerdicts();
    assert c == Ok(true);
  }

  /**
    Queries A, B and C: A and C are published, abstract B is not, and the
    superclass files of A and B are cached.
   */
  method FirstRun() returns (detector: Detector)
    ensures fresh(detector) && SampleDetector(detector)
    ensures detector.published == [ClassFileName("A"), ClassFileName("C")]
    ensures detector.superClasses.Keys == {FileA, FileB}
  {
    detector := Registered();
    QueryA(detector);
    var b := QueryB(detector);
    QueryC(detector);
  }

  /**
    After the first run, querying C again reads C alone, leaves the cache as
    it was, and publishes C a second time (the sink is not deduplicated).
   */
  method EndToEnd() returns (published: seq<string>, cached: set<Path>, ghost secondReads: nat)
    ensures published == [ClassFileName("A"), ClassFileName("C"), ClassFileName("C")]
    ensures cached == {FileA, FileB}
    ensures secondReads == 1
  {
    var detector := FirstRun();
    ghost var before := detector.readLog;
    var again := detector.ProcessTestClass(FileC, SampleRank);
    SampleDescriptors();
    SampleParents();
    SampleVerdicts();
    secondReads := |detector.readLog| - |before|;
    published := detector.published;
    cached := detector.superClasses.Keys;
  }
}

=== FILE: stale.dfy ===
/**
  A cached superclass verdict outliving a registration. Y extends X, and X
  extends lib/Base, which no directory and no archive holds. Querying Y
  caches X as no test. Registering "lib.Base" afterwards makes X, and so Y,
  tests; yet the registration leaves the cache as it is, and the next query
  of Y answers from the stale entry.
 */
module StaleCache {
  import opened Types
  import opened Names
  import opened Classpath
  import opened Hierarchy
  import opened Detection

  const Out: Path := "out"
  const FileX: Path := "out/X.class"
  const FileY: Path := "out/Y.class"

  function StaleFileSystem(): FileSystem {
    FileSystem(
      {Out},
      {FileX, FileY},
      map[
        FileX := ClassDescriptor("X", Some("lib/Base"), false, {}),
        FileY := ClassDescriptor("Y", Some("X"), false, {})])
  }

  function StaleEnvironment(): Environment {
    Environment(StaleFileSystem(), (jars, name) => None, d => false)
  }

  function StaleRank(p: Path): nat {
    if p == FileX then 0 else 1
  }

  /** The known names before and after "lib.Base" is registered. */
  const Before: seq<ClassName> := [TestCase, GroovyTestCase]
  const After: seq<ClassName> := [TestCase, GroovyTestCase, "lib/Base"]

  lemma StaleIndex()
    ensures IndexClasspath(StaleFileSystem(), Out, None) == ClasspathIndex([Out], [])
  {
  }

  /** X's base is found nowhere; Y's superclass X is found in the output directory. */
  lemma StaleParentLinks()
    ensures Parent(StaleEnvironment(), ClasspathIndex([Out], []), FileX) == None
    ensures Parent(StaleEnvironment(), ClasspathIndex([Out], []), FileY) == Some(FileX)
  {
    assert !StaleFileSystem().Exists(Child(Out, ClassFileName("lib/Base")));
    assert Child(Out, ClassFileName("X")) == FileX;
  }

  /** Y is the only file with a superclass file, and it is ranked above X, whatever names are known. */
  lemma StaleRankedAtY(known: seq<ClassName>)
    ensures Ranked(StaleEnvironment(), ClasspathIndex([Out], []), known, StaleRank, FileY)
  {
    StaleParentLinks();
    forall g | !TestRoot(StaleEnvironment(), known, g) && Parent(StaleEnvironment(), ClasspathIndex([Out], []), g).Some?
      ensures StaleRank(Parent(StaleEnvironment(), ClasspathIndex([Out], []), g).value) < StaleRank(g)
    {
      assert g in StaleFileSystem().classFiles;
      assert g == FileY;
    }
  }

  lemma StaleParents(known: seq<ClassName>)
    requires !TestRoot(StaleEnvironment(), known, FileY)
    ensures Parent(StaleEnvironment(), ClasspathIndex([Out], []), FileX) == None
    ensures Parent(StaleEnvironment(), ClasspathIndex([Out], []), FileY) == Some(FileX)
    ensures Ranked(StaleEnvironment(), ClasspathIndex([Out], []), known, StaleRank, FileX)
    ensures Ranked(StaleEnvironment(), ClasspathIndex([Out], []), known, StaleRank, FileY)
  {
    StaleParentLinks();
    StaleRankedAtY(known);
    RankedParent(StaleEnvironment(), ClasspathIndex([Out], []), known, StaleRank, FileY);
  }

  lemma StaleBaseNormalised()
    ensures Before + NormalisedNames([Some("lib.Base")]) == After
  {
    assert DottedToInternal("lib.Base") == "lib/Base";
  }

  /** Neither superclass name is known at first; afterwards only X's is. */
  lemma StaleNames()
    ensures !IsKnownName(Before, Some("lib/Base")) && !IsKnownName(Before, Some("X"))
    ensures IsKnownName(After, Some("lib/Base")) && !IsKnownName(After, Some("X"))
  {
    assert "lib/Base" != TestCase && "lib/Base" != GroovyTestCase;
    assert "X" != TestCase && "X" != GroovyTestCase;
  }

  /**
    The discrepancy: the entry X := false is right under the first names, but
    once "lib/Base" is known the answer from that entry is `false` while the
    verdict is `true`.
   */
  lemma StaleEntryAnswered()
    ensures Ranked(StaleEnvironment(), ClasspathIndex([Out], []), After, StaleRank, FileY)
    ensures Exact(StaleEnvironment(), ClasspathIndex([Out], []), Before, map[FileX := false], StaleRank)
    ensures CachedVerdict(StaleEnvironment(), ClasspathIndex([Out], []), After, map[FileX := false], StaleRank, FileY)
            == Ok(false)
    ensures Verdict(StaleEnvironment(), ClasspathIndex([Out], []), After, StaleRank, FileY) == Ok(true)
  {
    StaleNames();
    StaleParents(Before);
    StaleParents(After);
    assert Verdict(StaleEnvironment(), ClasspathIndex([Out], []), Before, StaleRank, FileX) == Ok(false);
    assert Verdict(StaleEnvironment(), ClasspathIndex([Out], []), After, StaleRank, FileX) == Ok(true);
  }

  /** A detector over the stale environment whose chain from Y is ranked. */
  ghost predicate StaleDetector(detector: Detector)
    reads detector
  {
    && detector.Valid()
    && detector.env == StaleEnvironment() && detector.Index() == ClasspathIndex([Out], [])
    && Ranked(detector.env, detector.Index(), detector.knownTestCaseClassNames, StaleRank, FileY)
  }

  /** A new detector: only the built-in names are known, and the cache is empty. */
  method NewStaleDetector() returns (detector: Detector)
    ensures fresh(detector) && StaleDetector(detector)
    ensures detector.knownTestCaseClassNames == Before && detector.superClasses == map[]
  {
    detector := new Detector(Out, None, StaleEnvironment());
    StaleIndex();
    StaleNames();
    StaleParents(Before);
  }

  /** On an empty cache, under the first names, neither X nor Y is a test. */
  lemma StaleFirstAnswers()
    ensures Ranked(StaleEnvironment(), ClasspathIndex([Out], []), Before, StaleRank, FileX)
    ensures Ranked(StaleEnvironment(), ClasspathIndex([Out], []), Before, StaleRank, FileY)
    ensures CachedVerdict(StaleEnvironment(), ClasspathIndex([Out], []), Before, map[], StaleRank, FileX) == Ok(false)
    ensures CachedVerdict(StaleEnvironment(), ClasspathIndex([Out], []), Before, map[], StaleRank, FileY) == Ok(false)
  {
    StaleNames();
    StaleParents(Before);
    assert !StaleFileSystem().Exists(Child(Out, ClassFileName("lib/Base")));
  }

  /** The first query of Y: no test, and X is cached as no test. */
  method FirstQuery() returns (detector: Detector, first: Result<bool>)
    ensures fresh(detector) && StaleDetector(detector) && detector.CacheExact(StaleRank)
    ensures detector.knownTestCaseClassNames == Before
    ensures detector.superClasses == map[FileX := false]
    ensures first == Ok(false)
  {
    detector := NewStaleDetector();
    first := detector.ProcessTestClass(FileY, StaleRank);
    StaleNames();
    StaleParents(Before);
    StaleFirstAnswers();
    assert Ancestors(StaleEnvironment(), ClasspathIndex([Out], []), Before, StaleRank, FileY) == {FileX};
    assert FileX in detector.superClasses;
    assert detector.superClasses.Keys == {FileX} && !detector.superClasses[FileX];
  }

  /**
    As the source registers names: the second query of Y answers from the
    stale entry, `false`, although Y is now a test.
   */
  method StaleRun() returns (first: Result<bool>, second: Result<bool>)
    ensures first == Ok(false) && second == Ok(false)
    ensures Ranked(StaleEnvironment(), ClasspathIndex([Out], []), After, StaleRank, FileY)
    ensures Verdict(StaleEnvironment(), ClasspathIndex([Out], []), After, StaleRank, FileY) == Ok(true)
  {
    var detector;
    detector, first := FirstQuery();
    StaleBaseNormalised();
    detector.AddKnownTestCaseClassNames([Some("lib.Base")]);
    StaleRankedAtY(After);
    second := detector.ProcessTestClass(FileY, StaleRank);
    StaleEntryAnswered();
  }

  /** With the revalidating registration, the second query of Y finds it a test. */
  method RevalidatedRun() returns (first: Result<bool>, second: Result<bool>)
    ensures first == Ok(false) && second == Ok(true)
  {
    var detector;
    detector, first := FirstQuery();
    StaleBaseNormalised();
    detector.AddKnownTestCaseClassNamesRevalidating([Some("lib.Base")], StaleRank);
    StaleRankedAtY(After);
    second := detector.ProcessTestClass(FileY, StaleRank);
    StaleEntryAnswered();
  }
}

=== FILE: types.dfy ===
/**
  Values the test-class detector works on: paths, internal class names, the
  structural summary of a compiled class, the part of the file system the
  detector can observe, and the failures it reports.
 */
module Types {

  /** A file path, compared by its text as java.io.File compares paths. */
  type Path = string

  /** A class name; after normalisation, in the slash-separated internal form. */
  type ClassName = string

  /** A value that may be absent (a Java null). */
  datatype Option<+T> = None | Some(value: T)

  /** The outcome of an operation that can throw. */
  datatype Result<+T> = Ok(value: T) | Err(error: Error)

  /** The two exceptions the detector raises itself. */
  datatype Error =
    | IllegalArgument(message: string)   // an empty superclass name was looked up
    | ClassFileUnreadable(path: Path)    // "failed to read class file <path>"

  /**
    What the bytecode reader extracts from one class file: the class name,
    the superclass name (absent for the root class), the abstract flag and
    the annotations present.
   */
  datatype ClassDescriptor = ClassDescriptor(
    name: ClassName,
    superName: Option<ClassName>,
    isAbstract: bool,
    annotations: set<string>)

  /**
    The file system as the detector sees it: the existing directories, the
    existing regular files, and the descriptor the reader extracts from each
    path it can read as a class file; a path without one fails to read.
   */
  datatype FileSystem = FileSystem(
    directories: set<Path>,
    files: set<Path>,
    classFiles: map<Path, ClassDescriptor>)
  {
    /** java.io.File.exists: a directory or a regular file is there. */
    predicate Exists(p: Path) {
      p in directories || p in files
    }

    /** java.io.File.isDirectory */
    predicate IsDirectory(p: Path) {
      p in directories
    }

    /** java.io.File.isFile */
    predicate IsFile(p: Path) {
      p in files
    }
  }
}
